=== FILE: README.md ===
# ecommerce_website core, modelled in Dafny

ecommerce_website is a Gin/GORM shop backend. This project models its decision logic as pure
functions over an immutable store:

- the purchase flow: look up a product, decrement its inventory, append a quantity-1 order;
- the related-products recommender: count same-category views per product id, rank them by
  count, keep the first five ids other than the product itself, fetch those rows;
- the admin catalogue handlers (add, update, delete) and the search sort-option validation
  that builds the `ORDER BY` clause;
- the user handlers (register, update, delete, lookup by id) and the per-product view-count map;
- the request filters: bearer-token admission, the admin gate, view-event capture and the
  count map that drops the empty product id.

The store (`Model.Store`) holds one row sequence per table (products, orders, users, view events),
in insertion order, and each table's auto-increment counter. `Model.Valid` says product and user ids
are unique and were handed out by their counter. A route id addresses the row whose id, written in
decimal, equals it (`Model.ProductKey`, `Model.UserKey`).
A product's inventory is a 64-bit integer (`Model.Int64`), so decrementing it wraps as Go's `int` does.

Each writing handler is a function from the store and the request to a `Step`: the store afterwards and
either a result or the kind of error the handler reports. HTTP status codes and JSON envelopes are
reduced to that error kind, except in the filters, whose 401/500 aborts are kept. The read-only
recommendation handlers return a `Result` over the unchanged store.

The model does no I/O. What it cannot see enters as a parameter:

- a write the database rejects is a boolean parameter (`createFails`, `saveFails`,
  `deleteFails`, `PurchaseFaults`);
- bcrypt is `hash: string -> Option<string>`;
- the JWT library is `parse: string -> ParsedToken` (did it err, is the token valid, which claims
  it decoded) for the auth filter, and `parseToken: string -> Option<int>` for the admin gate;
- the clock is a Unix time in nanoseconds.

`sort.Slice` over a Go map runs in an order that is not fixed, and the sort is unstable.
`Recommend.SortByCountDesc` therefore takes the map keys in an arbitrary order. Its contract is the
whole promise: a permutation of the map's entries, with counts non-increasing.

Files: `common.dfy` (Option/Result, error kinds, first-match search, filtering), `decimal.dfy`
(`strconv.Itoa` and its injectivity), `model.dfy` (records, store, lookups), `catalog.dfy`,
`purchase.dfy`, `recommend.dfy`, `accounts.dfy`, `middleware.dfy`.

## Model

| member | source | states |
|---|---|---|
| Decimal.Itoa | ecommerce_website/controllers/top5Products.go:82 | The canonical decimal text: a '-' exactly for negative values, then digits only, with no leading zero except for 0 itself |
| Decimal.ItoaInjective | ecommerce_website/controllers/top5Products.go:82 | Two ids have the same decimal text exactly when they are equal, so comparing route texts compares ids |
| Model.ProductIndex | ecommerce_website/controllers/productController.go:59-62 | The row `Where("id = ?", key).First` finds is the first row whose key is `key`; -1 exactly when no row has that key |
| Model.LookupProduct | ecommerce_website/controllers/purchaseProductController.go:80-87 | A product lookup returns a stored row carrying the key, and fails with "record not found" exactly when no row carries it |
| Model.LookupProductFindsRow | ecommerce_website/controllers/top5Products.go:106-113 | In a valid table, a product's own key finds that very product |
| Model.UserIndex | ecommerce_website/controllers/userController.go:167 | The row `Where("id = ?", key).First` finds is the first user whose key is `key`; -1 exactly when no user has that key |
| Model.UserIndexFindsRow | ecommerce_website/controllers/userController.go:190-195 | In a valid table, a user's own key finds that user's position |
| Model.RemoveAtMembers | ecommerce_website/controllers/productController.go:91 | Removing one row keeps every other row and adds none |
| Catalog.SortClause | ecommerce_website/controllers/productController.go:101-140 | Defaults are addedDate/asc; an invalid sortBy is reported first, then an invalid sortOrder; a pair of valid values is always accepted, and then the clause is one of the four legal ones, names the price column exactly when sortBy is price and DESC exactly when sortOrder is desc; the empty-clause fallback is never taken |
| Catalog.AddProduct | ecommerce_website/controllers/productController.go:12-36 | An unbindable body or a failed insert changes nothing; otherwise exactly one row is appended, with the next id and the request's six fields, and validity is kept |
| Catalog.AddThenLookup | ecommerce_website/controllers/productController.go:29-35 | The product just added is what its id now addresses |
| Catalog.UpdateProductDetails | ecommerce_website/controllers/productController.go:55-80 | An unknown id is refused before the body; a known id gets exactly the six request fields, keeping its id, and every other row is unchanged; a failed save still reports success and changes nothing |
| Catalog.UpdatePreservesValid | ecommerce_website/controllers/productController.go:71-77 | An update keeps product ids unique and in the counter's range |
| Catalog.UpdateThenLookup | ecommerce_website/controllers/productController.go:57-77 | After a saved update the same key addresses the old row carrying the new fields |
| Catalog.DeleteProduct | ecommerce_website/controllers/productController.go:82-94 | An unknown id is refused with the store unchanged; a known id succeeds, removing one row unless the delete itself fails, and touches no other table |
| Catalog.DeleteKeepsOthers | ecommerce_website/controllers/productController.go:86-91 | A delete that went through keeps every product with another key and adds none |
| Catalog.DeletePreservesValid | ecommerce_website/controllers/productController.go:91 | Deleting keeps product ids unique and in the counter's range |
| Catalog.DeleteThenLookupFails | ecommerce_website/controllers/productController.go:84-91 | After a delete that went through, the key addresses nothing |
| Purchase.SetInventory | ecommerce_website/controllers/purchaseProductController.go:63 | The column update writes the inventory of the rows with that id and no other field or row |
| Purchase.Decrement | ecommerce_website/controllers/purchaseProductController.go:60 | `Inventory--` on a 64-bit Go `int`: the result is the input minus one modulo 2^64, so it is exactly one lower except that the least value wraps to the greatest |
| Purchase.UpdateProductInventory | ecommerce_website/controllers/purchaseProductController.go:58-68 | A failed write changes nothing; otherwise the product's rows hold the looked-up inventory decremented as a 64-bit `int`, and no other row or table changes |
| Purchase.CreateOrder | ecommerce_website/controllers/purchaseProductController.go:71-78 | A failed insert changes nothing; otherwise exactly one order is appended under the next order id |
| Purchase.PerformPurchase | ecommerce_website/controllers/purchaseProductController.go:34-55 | Success exactly when both writes succeed; a failed decrement writes nothing; a failed order keeps the decrement; the order is one unit at the product's price with user id 0; the order counter advances only on success, and users, views and the product and user counters are untouched |
| Purchase.PurchaseProduct | ecommerce_website/controllers/purchaseProductController.go:12-31 | An unknown id gives "Invalid product ID" with the store unchanged; after a successful lookup every failure is reported as a purchase error; once the decrement is written the product rows are exactly those the inventory update writes; success appends exactly the quantity-1 order and advances only the order counter; users, views and the other counters are never touched |
| Purchase.PurchaseWritesOnlyInventory | ecommerce_website/controllers/purchaseProductController.go:63 | Whatever happens, a purchase adds or removes no product and changes no product field but the inventory |
| Purchase.PurchasePreservesValid | ecommerce_website/controllers/purchaseProductController.go:12-68 | A purchase keeps product ids unique and in the counter's range, whatever fails |
| Purchase.PurchaseWritesInventory | ecommerce_website/controllers/purchaseProductController.go:58-63 | Once the decrement is written, rows with the product's id hold its looked-up inventory decremented, and every other row is as before |
| Purchase.PurchaseDecrementsStock | ecommerce_website/controllers/purchaseProductController.go:59-63 | Once the decrement is written, the addressed product's inventory is exactly one lower, with no floor at zero; the least 64-bit value wraps to the greatest |
| Purchase.PurchaseConservesUnits | ecommerce_website/controllers/purchaseProductController.go:34-55 | A successful purchase moves one unit from the shelf to the ledger: inventory plus ordered units is unchanged, except that a wrapped inventory adds 2^64 |
| Purchase.FailedOrderLosesUnit | ecommerce_website/controllers/purchaseProductController.go:48-52 | With no rollback, an order insert that fails after the decrement loses one unit from inventory plus ordered units (2^64 is added if the inventory wrapped), and the purchase reports an error |
| Accounts.Register | ecommerce_website/controllers/userController.go:17-53 | Checks run in order: unbindable body, email on file (conflict), hash failure, insert failure, each with its own error kind; each error leaves the store unchanged; success appends one user with the request's name, email and role and the hash output as password |
| Accounts.RegisterPreserves | ecommerce_website/controllers/userController.go:26-49 | Registering keeps user ids unique and, through the conflict check, emails unique |
| Accounts.RegisterTwiceConflicts | ecommerce_website/controllers/userController.go:26-30 | After a registration, a second one with the same email is refused with a conflict and changes nothing |
| Accounts.GetUserByID | ecommerce_website/controllers/userController.go:202-208 | The lookup returns a stored user with that numeric id, and fails exactly when none has it |
| Accounts.GetUserByIDFindsRow | ecommerce_website/controllers/userController.go:202-208 | In a valid table every user is found by its id, and the guest id 0 by none |
| Accounts.UpdateUser | ecommerce_website/controllers/userController.go:163-185 | An unknown id is refused before the body; a known one gets the body's name, email and password stored verbatim, keeping id and role, every other user unchanged; a failed save still reports success |
| Accounts.UpdateUserThenLookup | ecommerce_website/controllers/userController.go:179-182 | After a saved update the store stays valid and the same key addresses the same position |
| Accounts.UpdateUserMayDuplicateEmail | ecommerce_website/controllers/userController.go:179-182 | Unlike registration, an update does not check emails: a valid store with distinct emails can end up with two users sharing one |
| Accounts.DeleteUser | ecommerce_website/controllers/userController.go:187-200 | An unknown id gives "User not found" with the store unchanged; a known id succeeds, removing one user unless the delete fails |
| Accounts.DeleteUserKeepsOthers | ecommerce_website/controllers/userController.go:192-197 | A delete that went through keeps every user with another key and adds none |
| Accounts.DeleteUserThenLookupFails | ecommerce_website/controllers/userController.go:190-197 | After a delete that went through, the store is valid and the key addresses nobody |
| Accounts.WebTrackingCount | ecommerce_website/controllers/userController.go:324-329 | The response never has the empty product id as a key |
| Accounts.WebTrackingCountKeys | ecommerce_website/controllers/userController.go:317-329 | The response is keyed by exactly the non-empty ids some grouped row carries |
| Accounts.WebTrackingCountEntry | ecommerce_website/controllers/userController.go:318-321 | Each non-empty id is answered with the count of the last grouped row carrying it |
| Accounts.AllCountsKeys | ecommerce_website/controllers/userController.go:318-321 | The overwrite map is keyed by exactly the ids the rows carry |
| Accounts.AllCountsLastWins | ecommerce_website/controllers/userController.go:318-321 | In the overwrite map an id holds the count of the last row carrying it |
| Middleware.IndexOf | ecommerce_website/middleware/middleware.go:32 | The first position where the pattern occurs, or -1 exactly when it occurs nowhere |
| Middleware.TokenFromHeader | ecommerce_website/middleware/middleware.go:32 | The header comes back unchanged exactly when it holds no "Bearer "; otherwise exactly the seven prefix characters are cut |
| Middleware.TokenFromBearerHeader | ecommerce_website/middleware/middleware.go:31-32 | From "Bearer " followed by a token, exactly the token is handed to the parser |
| Middleware.TokenFromHeaderInverse | ecommerce_website/middleware/middleware.go:32 | The token is the header with its first "Bearer " cut out: putting it back where it was found gives the header; a header without it is passed on whole |
| Middleware.ReplaceFirstDeletionInverse | ecommerce_website/middleware/middleware.go:32 | Deleting the first occurrence of a string is undone by inserting it back at that position |
| Middleware.TokenFromHeaderCutsInside | ecommerce_website/middleware/middleware.go:32 | The prefix is cut even from the middle of a header: "xBearer abc" becomes "xabc" |
| Middleware.AuthMiddleware | ecommerce_website/middleware/middleware.go:19-108 | As written: "header missing" exactly when the header is empty; a missing exp, then a non-numeric exp, then a past exp each reject, exactly under their conditions; after those, "invalid token" exactly when the library reported no error, or the token is valid, or the email claim is a string; otherwise the request is admitted, carrying the empty email |
| Middleware.AuthMiddlewareIntended | ecommerce_website/middleware/middleware.go:77-92 | Corrected: admitted exactly when the checks before pass, the library accepted the token and the email claim is a string, which is what the request then carries |
| Middleware.AuthAdmitsForgedToken | ecommerce_website/middleware/middleware.go:77-92 | A token that failed verification but has a future exp and no email is admitted as written and refused as intended |
| Middleware.AdminCheck | ecommerce_website/middleware/middleware.go:136-150 | A failed user lookup aborts with 500, a non-admin with 401, and the chain continues exactly for a stored user with role "admin" |
| Middleware.AdminMiddleware | ecommerce_website/middleware/middleware.go:110-152 | As written: no header checks guest id 0; a token the library cannot read lets the chain continue with no role check; a readable one checks that user id |
| Middleware.AdminMiddlewareIntended | ecommerce_website/middleware/middleware.go:124-130 | Corrected: an unreadable token is refused with 401, so the chain continues only if the store holds an admin |
| Middleware.AdminRefusesGuest | ecommerce_website/middleware/middleware.go:117-142 | In a valid store a request with no header is refused with 500, since no user has id 0 |
| Middleware.AdminIntendedAdmitsOnlyAdmins | ecommerce_website/middleware/middleware.go:136-150 | The corrected gate lets through only a stored admin whose id the token (or the guest default) names |
| Middleware.GetProductsByID | ecommerce_website/middleware/middleware.go:237-249 | The empty id is refused without a lookup; otherwise a stored row with that key is returned, or "record not found" when none has it |
| Middleware.WebTrackingMiddleware | ecommerce_website/middleware/middleware.go:154-184 | A product that cannot be found lets the chain continue with nothing written; otherwise exactly one view event with the route id and the product's category, name and attributes is appended, and a failed insert aborts with 500 and writes nothing |
| Middleware.WebTrackingCountsOneView | ecommerce_website/middleware/middleware.go:170-181 | A recorded view raises the route id's view count by one and no other id's |
| Middleware.ProductCounts | ecommerce_website/middleware/middleware.go:213-223 | The count map never has the empty product id as a key |
| Middleware.NonEmptyCountsRestrictsAll | ecommerce_website/middleware/middleware.go:214-218 | The loop that skips the empty id builds exactly the non-empty part of the plain overwrite map |
| Middleware.WebTrackingCountMatchesProductCounts | ecommerce_website/middleware/middleware.go:212-223 | The middleware's count map and the user controller's response are the same map for the same grouped rows |
| Middleware.ViewsPositive | ecommerce_website/middleware/middleware.go:205-208 | An id has a positive view count exactly when some logged event carries it |
| Middleware.ProductCountsKeys | ecommerce_website/middleware/middleware.go:199-223 | Over a grouping of the view log, the count map is keyed by exactly the non-empty ids some event carries |
| Middleware.ProductCountsAreViews | ecommerce_website/middleware/middleware.go:199-223 | Over a grouping of the view log, each id maps to its number of view events |
| Recommend.GetProductsByCategory | ecommerce_website/controllers/top5Products.go:96-104 | Exactly the stored products of the category |
| Recommend.GetProductsByIDs1 | ecommerce_website/controllers/top5Products.go:115-123 | Exactly the stored products whose key is in the id list, in no promised order |
| Recommend.SameCategoryIdsCountViews | ecommerce_website/controllers/top5Products.go:57-62 | Each id occurs among the same-category view ids once per same-category view carrying it |
| Recommend.CountStep | ecommerce_website/controllers/top5Products.go:57-61 | One pass of the grouping loop bumps a count exactly for a same-category view and keeps the map an exact tally of the views seen so far |
| Recommend.CountBehaviors | ecommerce_website/controllers/top5Products.go:55-62 | The count map holds exactly the ids of same-category views, each mapped to its positive number of such views |
| Recommend.InsertDescSorted | ecommerce_website/controllers/top5Products.go:75-77 | Inserting an entry keeps a ranking non-increasing in count |
| Recommend.SortByCountDesc | ecommerce_website/controllers/top5Products.go:64-77 | The ranking lists every entry of the count map exactly once and nothing else, with counts non-increasing |
| Recommend.EnumeratedEntries | ecommerce_website/controllers/top5Products.go:69-74 | A ranking that enumerates the count map pairs each id with its count, contains every entry and repeats no id |
| Recommend.WithoutSelfMembers | ecommerce_website/controllers/top5Products.go:82-84 | Skipping the product's own id keeps exactly the entries for other ids |
| Recommend.WithoutSelfSorted | ecommerce_website/controllers/top5Products.go:81-85 | Skipping entries keeps the ranking sorted |
| Recommend.ChosenMembers | ecommerce_website/controllers/top5Products.go:80-85 | At most five entries are chosen, all from the ranking and none for the product itself |
| Recommend.ChosenSorted | ecommerce_website/controllers/top5Products.go:80-85 | From a sorted ranking the chosen entries come in non-increasing count order |
| Recommend.SelectionStops | ecommerce_website/controllers/top5Products.go:81 | The selection loop stops after the whole ranking or at five ids, and either way it has chosen the first five other entries |
| Recommend.SelectRelatedIds | ecommerce_website/controllers/top5Products.go:79-85 | The selected ids are exactly the first at most five ids of the ranking other than the product's own, which never occurs among them |
| Recommend.GetRelatedProducts | ecommerce_website/controllers/top5Products.go:37-94 | An empty category is the "no related products" error; otherwise the counts are exact, the ranking is a sorted permutation of them, the result is the stored products with the chosen ids, never the product itself when route ids are canonical, and at most five in a valid store |
| Recommend.GetProductDetails | ecommerce_website/controllers/top5Products.go:14-35 | An unknown id is "Invalid product ID"; the related-products error cannot follow a lookup, since the product is in its own category, so the call succeeds exactly when the lookup does; the addressed product then comes back with exactly the stored products of the chosen ids of an exact, sorted count ranking, which exclude it |

## Left out

- Login, RefreshAccessToken, LogoutUser and GetMe (controllers/userController.go): they are cookie, bcrypt-compare and JWT plumbing with no decision logic beyond the libraries.
- GetWebTrackingCount1: it groups by a column that does not exist. The local count increment after `c.Next()` in WebTrackingMiddleware is discarded. Neither has an observable effect.
- JWT signing, verification and key parsing, and bcrypt: they enter as function parameters (`parse`, `parseToken`, `hash`).
- The clock and the `float64` exp claim: the clock is a parameter, and the exp claim is taken as whole seconds. The truncation of a fractional float64 exp is not modelled.
- Prices are whole integers that are only copied. Float arithmetic is not modelled.
- Ids, order quantities, view counts and the ledger's unit totals are unbounded integers. They only grow by one from small starting values, so their 64-bit limit is not modelled. Inventory is the one field an admin can set to the limit directly, so only inventory has that width.
- The search's `LIKE` filter, and the listing reads GetProducts, GetProductByID's JSON reply, GetUsers, GetUser and GetAllOrders: these are plain reads with no decision logic.
- Read failures of the database are not modelled, only write failures. The total-count query of GetWebTrackingCount is therefore left out.
- GORM soft delete: a deleted product or user is modelled as removed, since every model-based query in scope skips soft-deleted rows. The raw `Table("web_trackings")` GROUP BY queries add no such filter, but nothing in scope deletes a tracking row, so they see the same rows.
- Route ids are matched against the canonical decimal text of the row id. The numeric coercion SQL applies to a text id ("05", " 5") is not modelled.
- Concurrency: two simultaneous purchases can lose an update. The model is sequential.
- HTTP status codes and JSON bodies of the handlers are reduced to an error kind. The filters keep 401/500.
- Recommend.GetRelatedProducts: the bound of five result rows is proved only for a store with unique product ids. With duplicate ids the `IN` query can return more rows than ids.
- Recommend.GetRelatedProducts: the product is excluded from its own recommendations only for canonical ids. In the source, a view of "/product/05" is logged with id "05" because `id = '05'` finds product 5. "05" differs from `strconv.Itoa(5)`, so the self-skip keeps it, and `id IN ('05')` then fetches product 5 itself. The model matches only "5", so it never shows this.
- Recommend.GetProductsByIDs1: the result keeps the store's order, whereas the `IN` query promises no order. The contract states membership only.
- Purchase.PurchaseWritesOnlyInventory: no product field other than inventory changes only among the modelled fields. The records leave out GORM's CreatedAt and UpdatedAt, and `Update("inventory", ...)` and `Save` also write `updated_at`.
- Accounts.Register: an email is taken only when it is exactly equal, as a string, to a stored one. `Recommend.GetProductsByCategory` matches categories the same way. Under a case-insensitive SQL collation, both would match more rows. The source does not fix which database is used.
- Model.LookupProduct: it returns the first matching row in insertion order, whereas `First` orders by primary key. A valid store does not keep rows sorted by id, but it holds at most one row per id, so both pick the same row (`Model.LookupProductFindsRow`).

## Findings

| source | as written | input that shows it | evidently intended | confidence | as-written member | corrected member |
|---|---|---|---|---|---|---|
| ecommerce_website/middleware/middleware.go:77-92 | rejects when `err == nil` or `token.Valid`, and when the email claim is a string | a token that fails verification, with a future `exp` and no email claim, is admitted with an empty email (`Middleware.AuthAdmitsForgedToken`) | reject when `err != nil` or `!token.Valid`, and when the email claim is not a string | high, not executed | Middleware.AuthMiddleware | Middleware.AuthMiddlewareIntended |
| ecommerce_website/middleware/middleware.go:124-130 | on a token parse error the filter returns without aborting, so Gin runs the handler | any non-empty header the token parser rejects passes the admin gate, even with no admin in the store (`Middleware.AdminPassesUnreadableToken`) | abort with 401 on a parse error | high, not executed | Middleware.AdminMiddleware | Middleware.AdminMiddlewareIntended |

=== FILE: accounts.dfy ===
/**
 * The user-store handlers of controllers/userController.go: register, update, delete,
 * lookup by numeric id, and the per-product view counts of `GetWebTrackingCount`.
 */
module Accounts {
  import opened Common
  import opened Decimal
  import opened Model

  /** The body `Register` binds (model/user.go, RegisterRequest). */
  datatype RegisterRequest = RegisterRequest(fullName: string, email: string, password: string, role: string)

  /** The body `UpdateUser` binds (model/user.go, UpdateUser). */
  datatype UserUpdate = UserUpdate(fullName: string, email: string, password: string)

  /** `Where("email = ?", email).First(...)` finds a row. */
  predicate EmailTaken(users: seq<User>, email: string) {
    exists i | 0 <= i < |users| :: users[i].email == email
  }

  /** No two users share an email. */
  ghost predicate DistinctEmails(users: seq<User>) {
    forall i, j | 0 <= i < j < |users| :: users[i].email != users[j].email
  }

  /**
   * `Register`: a body that fails to bind is refused, then an email already on file, then a
   * hashing failure, then a failed insert. `hash` stands for bcrypt, `None` for its error.
   */
  function Register(s: Store, request: Option<RegisterRequest>, hash: string -> Option<string>, createFails: bool)
    : (r: Step<User>)
    ensures request.None? ==> r == Step(s, Err(InvalidRequestBody))
    ensures request.Some? && EmailTaken(s.users, request.value.email) ==> r == Step(s, Err(UserAlreadyExists))
    ensures request.Some? && !EmailTaken(s.users, request.value.email) && hash(request.value.password).None? ==>
      r == Step(s, Err(HashFailed))
    ensures request.Some? && !EmailTaken(s.users, request.value.email) && hash(request.value.password).Some? && createFails
      ==> r == Step(s, Err(WriteFailed))
    ensures r.result.Err? ==> r.store == s
    ensures r.result.Ok? <==>
      && request.Some?
      && !EmailTaken(s.users, request.value.email)
      && hash(request.value.password).Some?
      && !createFails
    ensures r.result.Ok? ==>
      var u := r.result.value;
      && u.id == s.nextUserId
      && u.fullName == request.value.fullName
      && u.email == request.value.email
      && u.role == request.value.role
      && u.password == hash(request.value.password).value
      && r.store.users == s.users + [u]
    ensures r.store.(users := s.users, nextUserId := s.nextUserId) == s
  {
    if request.None? then Step(s, Err(InvalidRequestBody))
    else
      var req := request.value;
      if EmailTaken(s.users, req.email) then Step(s, Err(UserAlreadyExists))
      else match hash(req.password)
        case None => Step(s, Err(HashFailed))
        case Some(hashed) =>
          if createFails then Step(s, Err(WriteFailed))
          else
            var u := User(s.nextUserId, req.fullName, req.email, hashed, req.role);
            Step(s.(users := s.users + [u], nextUserId := s.nextUserId + 1), Ok(u))
  }

  /** Registering keeps user ids unique and emails unique. */
  lemma RegisterPreserves(s: Store, request: Option<RegisterRequest>, hash: string -> Option<string>, createFails: bool)
    requires Valid(s) && DistinctEmails(s.users)
    ensures var t := Register(s, request, hash, createFails).store;
      Valid(t) && DistinctEmails(t.users)
  {
    var r := Register(s, request, hash, createFails);
    if r.result.Ok? {
      var u := r.result.value;
      forall i | 0 <= i < |s.users|
        ensures s.users[i].email != u.email
      {
        assert !EmailTaken(s.users, u.email);
      }
    }
  }

  /** Registering the same email twice: the second attempt is refused and changes nothing. */
  lemma RegisterTwiceConflicts(s: Store, request: Option<RegisterRequest>, hash: string -> Option<string>, again: RegisterRequest)
    requires Register(s, request, hash, false).result.Ok?
    requires again.email == request.value.email
    ensures var t := Register(s, request, hash, false).store;
      forall fails: bool :: Register(t, Some(again), hash, fails) == Step(t, Err(UserAlreadyExists))
  {
    var t := Register(s, request, hash, false).store;
    assert t.users[|t.users| - 1].email == again.email;
  }

  /** `GetUserByID`: the first user row whose numeric id is `id`. */
  function GetUserByID(users: seq<User>, id: int): (r: Result<User>)
    ensures r.Ok? ==> r.value in users && r.value.id == id
    ensures r.Err? <==> forall u | u in users :: u.id != id
    ensures r.Err? ==> r.error == RecordNotFound
  {
    var i := FirstIndex(users, (u: User) => u.id == id);
    if i < 0 then Err(RecordNotFound) else Ok(users[i])
  }

  /** In a valid table every user is found by its own id, and id 0 (the guest) by none. */
  lemma GetUserByIDFindsRow(users: seq<User>, next: nat, u: User)
    requires ValidUsers(users, next)
    requires u in users
    ensures GetUserByID(users, u.id) == Ok(u)
    ensures GetUserByID(users, 0).Err?
  {
    var v := GetUserByID(users, u.id).value;
    var i :| 0 <= i < |users| && users[i] == v;
    var j :| 0 <= j < |users| && users[j] == u;
    assert i == j;
  }

  /**
   * `UpdateUser`: an unknown id is refused before the body is read; a known one gets the
   * body's name, email and password, the password stored as sent. The save's error is ignored.
   */
  function UpdateUser(s: Store, key: string, input: Option<UserUpdate>, saveFails: bool): (r: Step<()>)
    ensures UserIndex(s.users, key) < 0 ==> r == Step(s, Err(RecordNotFound))
    ensures UserIndex(s.users, key) >= 0 && input.None? ==> r == Step(s, Err(InvalidRequestBody))
    ensures r.result.Ok? <==> UserIndex(s.users, key) >= 0 && input.Some?
    ensures saveFails ==> r.store == s
    ensures r.store.(users := s.users) == s
    ensures |r.store.users| == |s.users|
    ensures r.result.Ok? && !saveFails ==>
      var i := UserIndex(s.users, key);
      && r.store.users[i].id == s.users[i].id
      && r.store.users[i].role == s.users[i].role
      && r.store.users[i].fullName == input.value.fullName
      && r.store.users[i].email == input.value.email
      && r.store.users[i].password == input.value.password
      && forall j | 0 <= j < |s.users| && j != i :: r.store.users[j] == s.users[j]
  {
    var i := UserIndex(s.users, key);
    if i < 0 then Step(s, Err(RecordNotFound))
    else if input.None? then Step(s, Err(InvalidRequestBody))
    else if saveFails then Step(s, Ok(()))
    else
      var u := s.users[i];
      var f := input.value;
      Step(s.(users := s.users[i := u.(fullName := f.fullName, email := f.email, password := f.password)]), Ok(()))
  }

  /** After a saved update, the same key still addresses the user, now carrying the new fields. */
  lemma UpdateUserThenLookup(s: Store, key: string, input: Option<UserUpdate>)
    requires Valid(s)
    requires UpdateUser(s, key, input, false).result.Ok?
    ensures var t := UpdateUser(s, key, input, false).store;
      && Valid(t)
      && UserIndex(t.users, key) == UserIndex(s.users, key)
  {
    var t := UpdateUser(s, key, input, false).store;
    var i := UserIndex(s.users, key);
    assert forall j | 0 <= j < |t.users| :: t.users[j].id == s.users[j].id;
    UserIndexFindsRow(t.users, t.nextUserId, i);
  }

  /** Nothing checks the new email: an update can give two users the same one. */
  lemma UpdateUserMayDuplicateEmail()
    ensures var a := User(1, "A", "a@x.io", "pw-one", "user");
      var b := User(2, "B", "b@x.io", "pw-two", "user");
      var s := Store([], [], [a, b], [], 1, 1, 3, 1);
      && Valid(s) && DistinctEmails(s.users)
      && UpdateUser(s, UserKey(b), Some(UserUpdate("B", "a@x.io", "pw-two")), false).result.Ok?
      && !DistinctEmails(UpdateUser(s, UserKey(b), Some(UserUpdate("B", "a@x.io", "pw-two")), false).store.users)
  {
    var a := User(1, "A", "a@x.io", "pw-one", "user");
    var b := User(2, "B", "b@x.io", "pw-two", "user");
    var s := Store([], [], [a, b], [], 1, 1, 3, 1);
    UserIndexFindsRow(s.users, s.nextUserId, 1);
    var t := UpdateUser(s, UserKey(b), Some(UserUpdate("B", "a@x.io", "pw-two")), false).store;
    assert t.users[0].email == t.users[1].email;
  }

  /** `DeleteUser`: an unknown id is refused; a known one is removed, the delete's error ignored. */
  function DeleteUser(s: Store, key: string, deleteFails: bool): (r: Step<()>)
    ensures UserIndex(s.users, key) < 0 ==> r == Step(s, Err(UserNotFound))
    ensures r.result.Ok? <==> UserIndex(s.users, key) >= 0
    ensures deleteFails ==> r.store == s
    ensures r.store.(users := s.users) == s
    ensures r.result.Ok? && !deleteFails ==> |r.store.users| == |s.users| - 1
  {
    var i := UserIndex(s.users, key);
    if i < 0 then Step(s, Err(UserNotFound))
    else if deleteFails then Step(s, Ok(()))
    else Step(s.(users := RemoveAt(s.users, i)), Ok(()))
  }

  /** A delete that went through keeps every other user and adds none. */
  lemma DeleteUserKeepsOthers(s: Store, key: string)
    requires DeleteUser(s, key, false).result.Ok?
    ensures var t := DeleteUser(s, key, false).store;
      && (forall u | u in t.users :: u in s.users)
      && (forall u | u in s.users && UserKey(u) != key :: u in t.users)
  {
    var i := UserIndex(s.users, key);
    assert DeleteUser(s, key, false).store.users == RemoveAt(s.users, i);
    RemoveAtMembers(s.users, i);
  }

  /** After a delete that went through, the store is still valid and the key addresses nobody. */
  lemma DeleteUserThenLookupFails(s: Store, key: string)
    requires Valid(s)
    requires DeleteUser(s, key, false).result.Ok?
    ensures var t := DeleteUser(s, key, false).store;
      Valid(t) && UserIndex(t.users, key) < 0
  {
    var i := UserIndex(s.users, key);
    var t := DeleteUser(s, key, false).store;
    assert forall j | 0 <= j < |t.users| :: t.users[j] == s.users[if j < i then j else j + 1];
    forall u | u in t.users
      ensures UserKey(u) != key
    {
      var j :| 0 <= j < |t.users| && t.users[j] == u;
      var k := if j < i then j else j + 1;
      ItoaInjective(s.users[k].id, s.users[i].id);
    }
  }

  /** The grouped counts keyed by product id; a later row for the same id overwrites an earlier one. */
  function AllCounts(rows: seq<GroupRow>): map<string, int> {
    if |rows| == 0 then map[]
    else
      var last := rows[|rows| - 1];
      AllCounts(rows[..|rows| - 1])[last.productId := last.count]
  }

  /** `GetWebTrackingCount`: the grouped counts with the empty product id left out of the response. */
  function WebTrackingCount(rows: seq<GroupRow>): (r: map<string, int>)
    ensures "" !in r
  {
    var all := AllCounts(rows);
    map k | k in all && k != "" :: all[k]
  }

  /** The response is keyed by exactly the non-empty ids some grouped row carries. */
  lemma WebTrackingCountKeys(rows: seq<GroupRow>, k: string)
    ensures k in WebTrackingCount(rows) <==> k != "" && exists i | 0 <= i < |rows| :: rows[i].productId == k
  {
    AllCountsKeys(rows, k);
  }

  /** A non-empty id is answered with the count of the last grouped row carrying it. */
  lemma WebTrackingCountEntry(rows: seq<GroupRow>, i: int)
    requires 0 <= i < |rows| && rows[i].productId != ""
    requires forall j | i < j < |rows| :: rows[j].productId != rows[i].productId
    ensures rows[i].productId in WebTrackingCount(rows)
    ensures WebTrackingCount(rows)[rows[i].productId] == rows[i].count
  {
    AllCountsLastWins(rows, i);
  }

  /** An id is a key of the count map exactly when some row carries it. */
  lemma {:induction false} AllCountsKeys(rows: seq<GroupRow>, k: string)
    ensures k in AllCounts(rows) <==> exists i | 0 <= i < |rows| :: rows[i].productId == k
  {
    if |rows| > 0 {
      var front := rows[..|rows| - 1];
      AllCountsKeys(front, k);
      if k in AllCounts(front) {
        var i :| 0 <= i < |front| && front[i].productId == k;
        assert rows[i].productId == k;
      }
      if exists i | 0 <= i < |rows| :: rows[i].productId == k {
        var i :| 0 <= i < |rows| && rows[i].productId == k;
        if i < |front| { assert front[i].productId == k; }
      }
    }
  }

  /** The count map holds, for each id, the count of the last row carrying it. */
  lemma {:induction false} AllCountsLastWins(rows: seq<GroupRow>, i: int)
    requires 0 <= i < |rows|
    requires forall j | i < j < |rows| :: rows[j].productId != rows[i].productId
    ensures rows[i].productId in AllCounts(rows) && AllCounts(rows)[rows[i].productId] == rows[i].count
  {
    if i < |rows| - 1 {
      var front := rows[..|rows| - 1];
      assert front[i] == rows[i];
      AllCountsLastWins(front, i);
    }
  }
}

=== FILE: catalog.dfy ===
/**
 * The admin catalogue handlers and the search sort options of
 * controllers/productController.go.
 */
module Catalog {
  import opened Common
  import opened Decimal
  import opened Model

  /** The six fields a create or update request carries (`CreateProduct`, `UpdateProducts`). */
  datatype ProductFields = ProductFields(
    category: string,
    productName: string,
    description: string,
    price: Price,
    attributes: string,
    inventory: Int64)

  function FieldsOf(p: Product): ProductFields {
    ProductFields(p.category, p.productName, p.description, p.price, p.attributes, p.inventory)
  }

  /** The catalogue row `p` after a request's six fields are copied into it. */
  function WithFields(p: Product, f: ProductFields): Product {
    p.(category := f.category, productName := f.productName, description := f.description,
       price := f.price, attributes := f.attributes, inventory := f.inventory)
  }

  /** `c.DefaultQuery`: an absent parameter reads as the default, a present one verbatim, even if empty. */
  function QueryOr(param: Option<string>, default: string): string {
    match param
    case Some(v) => v
    case None => default
  }

  /** The `sortBy` values the search accepts, in the order it tries them. */
  const ValidSortOptions: seq<string> := ["addedDate", "price"]

  /** The `ORDER BY` clause of `SearchProducts` for the `sortBy` and `sortOrder` query parameters. */
  function SortClause(sortBy: Option<string>, sortOrder: Option<string>): (r: Result<string>)
    ensures r == Err(InvalidSortOption) <==> QueryOr(sortBy, "addedDate") !in {"addedDate", "price"}
    ensures r == Err(InvalidSortOrder) <==>
      QueryOr(sortBy, "addedDate") in {"addedDate", "price"} && QueryOr(sortOrder, "asc") !in {"asc", "desc"}
    ensures r.Ok? <==>
      QueryOr(sortBy, "addedDate") in {"addedDate", "price"} && QueryOr(sortOrder, "asc") in {"asc", "desc"}
    ensures r.Ok? ==> r.value in {"created_at ASC", "created_at DESC", "price ASC", "price DESC"}
    ensures r.Ok? ==> (r.value in {"price ASC", "price DESC"} <==> QueryOr(sortBy, "addedDate") == "price")
    ensures r.Ok? ==> (r.value in {"created_at DESC", "price DESC"} <==> QueryOr(sortOrder, "asc") == "desc")
    ensures sortBy.None? && sortOrder.None? ==> r == Ok("created_at ASC")
  {
    var field := QueryOr(sortBy, "addedDate");
    var direction := QueryOr(sortOrder, "asc");
    if field !in ValidSortOptions then Err(InvalidSortOption)
    else
      var column := if field == "addedDate" then "created_at" else if field == "price" then "price" else "";
      if direction == "asc" || direction == "desc" then
        var clause := column + (if direction == "asc" then " ASC" else " DESC");
        assert "created_at" + " ASC" == "created_at ASC" && "created_at" + " DESC" == "created_at DESC";
        assert "price" + " ASC" == "price ASC" && "price" + " DESC" == "price DESC";
        Ok(if clause == "" then "created_at ASC" else clause)
      else Err(InvalidSortOrder)
  }

  /** Distinct accepted choices give distinct clauses: the query sorts as the caller asked. */
  lemma SortClauseInjective(field1: Option<string>, order1: Option<string>, field2: Option<string>, order2: Option<string>)
    requires SortClause(field1, order1).Ok?
    requires SortClause(field1, order1) == SortClause(field2, order2)
    ensures QueryOr(field1, "addedDate") == QueryOr(field2, "addedDate")
    ensures QueryOr(order1, "asc") == QueryOr(order2, "asc")
  {
  }

  /** `AddProduct`: a new row with the next id and the request's six fields. */
  function AddProduct(s: Store, request: Option<ProductFields>, createFails: bool): (r: Step<Product>)
    ensures request.None? ==> r == Step(s, Err(InvalidRequestBody))
    ensures request.Some? && createFails ==> r == Step(s, Err(WriteFailed))
    ensures r.result.Ok? <==> request.Some? && !createFails
    ensures r.result.Ok? ==>
      && FieldsOf(r.result.value) == request.value
      && r.result.value.id == s.nextProductId
      && r.store.products == s.products + [r.result.value]
    ensures r.store.(products := s.products, nextProductId := s.nextProductId) == s
    ensures Valid(s) ==> Valid(r.store)
  {
    if request.None? then Step(s, Err(InvalidRequestBody))
    else if createFails then Step(s, Err(WriteFailed))
    else
      var f := request.value;
      var p := Product(s.nextProductId, f.category, f.productName, f.description, f.price, f.attributes, f.inventory);
      Step(s.(products := s.products + [p], nextProductId := s.nextProductId + 1), Ok(p))
  }

  /** The product just added is what its id now addresses. */
  lemma AddThenLookup(s: Store, request: Option<ProductFields>, createFails: bool)
    requires Valid(s)
    requires AddProduct(s, request, createFails).result.Ok?
    ensures var r := AddProduct(s, request, createFails);
      LookupProduct(r.store.products, ProductKey(r.result.value)) == Ok(r.result.value)
  {
    var r := AddProduct(s, request, createFails);
    LookupProductFindsRow(r.store.products, r.store.nextProductId, r.result.value);
  }

  /**
   * `UpdateProductDetails`: the addressed row gets the request's six fields. The handler
   * ignores the error of the final save, so a failed save still reports success.
   */
  function UpdateProductDetails(s: Store, key: string, request: Option<ProductFields>, saveFails: bool): (r: Step<()>)
    ensures LookupProduct(s.products, key).Err? ==> r == Step(s, Err(RecordNotFound))
    ensures LookupProduct(s.products, key).Ok? && request.None? ==> r == Step(s, Err(InvalidRequestBody))
    ensures r.result.Ok? <==> LookupProduct(s.products, key).Ok? && request.Some?
    ensures saveFails ==> r.store == s
    ensures r.store.(products := s.products) == s
    ensures |r.store.products| == |s.products|
    ensures r.result.Ok? && !saveFails ==>
      var i := ProductIndex(s.products, key);
      && r.store.products[i].id == s.products[i].id
      && FieldsOf(r.store.products[i]) == request.value
      && forall j | 0 <= j < |s.products| && j != i :: r.store.products[j] == s.products[j]
  {
    var i := ProductIndex(s.products, key);
    if i < 0 then Step(s, Err(RecordNotFound))
    else if request.None? then Step(s, Err(InvalidRequestBody))
    else if saveFails then Step(s, Ok(()))
    else Step(s.(products := s.products[i := WithFields(s.products[i], request.value)]), Ok(()))
  }

  /** An update rewrites no id, so product ids stay unique and inside the counter's range. */
  lemma UpdatePreservesValid(s: Store, key: string, request: Option<ProductFields>, saveFails: bool)
    requires Valid(s)
    ensures Valid(UpdateProductDetails(s, key, request, saveFails).store)
  {
    var t := UpdateProductDetails(s, key, request, saveFails).store;
    assert forall j | 0 <= j < |t.products| :: t.products[j].id == s.products[j].id;
  }

  /** After a saved update, the same key addresses the old row carrying the new fields. */
  lemma UpdateThenLookup(s: Store, key: string, request: Option<ProductFields>)
    requires Valid(s)
    requires UpdateProductDetails(s, key, request, false).result.Ok?
    ensures var before := LookupProduct(s.products, key).value;
      LookupProduct(UpdateProductDetails(s, key, request, false).store.products, key)
      == Ok(WithFields(before, request.value))
  {
    var t := UpdateProductDetails(s, key, request, false).store;
    var i := ProductIndex(s.products, key);
    UpdatePreservesValid(s, key, request, false);
    LookupProductFindsRow(t.products, t.nextProductId, t.products[i]);
  }

  /** `DeleteProduct`: the addressed row goes; the delete's own error is ignored by the handler. */
  function DeleteProduct(s: Store, key: string, deleteFails: bool): (r: Step<()>)
    ensures LookupProduct(s.products, key).Err? ==> r == Step(s, Err(RecordNotFound))
    ensures r.result.Ok? <==> LookupProduct(s.products, key).Ok?
    ensures deleteFails ==> r.store == s
    ensures r.store.(products := s.products) == s
    ensures r.result.Ok? && !deleteFails ==> |r.store.products| == |s.products| - 1
  {
    var i := ProductIndex(s.products, key);
    if i < 0 then Step(s, Err(RecordNotFound))
    else if deleteFails then Step(s, Ok(()))
    else Step(s.(products := RemoveAt(s.products, i)), Ok(()))
  }

  /** A delete that went through keeps every row but the addressed one, and adds none. */
  lemma DeleteKeepsOthers(s: Store, key: string)
    requires DeleteProduct(s, key, false).result.Ok?
    ensures var rows := DeleteProduct(s, key, false).store.products;
      && (forall p | p in rows :: p in s.products)
      && (forall p | p in s.products && ProductKey(p) != key :: p in rows)
  {
    var i := ProductIndex(s.products, key);
    assert DeleteProduct(s, key, false).store.products == RemoveAt(s.products, i);
    RemoveAtMembers(s.products, i);
  }

  /** Deleting keeps product ids unique and inside the counter's range. */
  lemma DeletePreservesValid(s: Store, key: string, deleteFails: bool)
    requires Valid(s)
    ensures Valid(DeleteProduct(s, key, deleteFails).store)
  {
    var i := ProductIndex(s.products, key);
    if 0 <= i && !deleteFails {
      var rows := DeleteProduct(s, key, deleteFails).store.products;
      assert forall j | 0 <= j < |rows| :: rows[j] == s.products[if j < i then j else j + 1];
    }
  }

  /** After a delete that went through, the key addresses nothing. */
  lemma DeleteThenLookupFails(s: Store, key: string)
    requires Valid(s)
    requires DeleteProduct(s, key, false).result.Ok?
    ensures LookupProduct(DeleteProduct(s, key, false).store.products, key).Err?
  {
    var t := DeleteProduct(s, key, false).store;
    var i := ProductIndex(s.products, key);
    forall p | p in t.products
      ensures ProductKey(p) != key
    {
      var j :| 0 <= j < |t.products| && t.products[j] == p;
      var k := if j < i then j else j + 1;
      assert t.products[j] == s.products[k];
      ItoaInjective(s.products[k].id, s.products[i].id);
    }
  }
}

=== FILE: common.dfy ===
/** Outcome wrappers and the sequence searches that every table lookup shares. */
module Common {

  datatype Option<+T> = None | Some(value: T)

  /** The error conditions the handlers report, one per message or status kind. */
  datatype Error =
    | InvalidRequestBody     // the JSON body did not bind
    | RecordNotFound         // "Record not found!" and any lookup that found no row
    | UserNotFound           // "User not found"
    | InvalidProductId       // "Invalid product ID"
    | EmptyProductId         // "productID is empty"
    | NoRelatedProducts      // "no related products found"
    | RelatedProductsFailed  // "Error retrieving related products"
    | WriteFailed            // a store insert or update reported an error
    | PurchaseFailed         // "Error purchasing product"
    | UserAlreadyExists      // "user already exists" (409)
    | HashFailed             // "failed to hash password"
    | InvalidSortOption      // "Invalid sort option"
    | InvalidSortOrder       // "Invalid sortOrder"

  datatype Result<+T> = Ok(value: T) | Err(error: Error)

  /** Position of the first element satisfying `matches`, or -1 when there is none. */
  function FirstIndex<T>(s: seq<T>, matches: T -> bool): (i: int)
    ensures -1 <= i < |s|
    ensures i == -1 <==> forall j | 0 <= j < |s| :: !matches(s[j])
    ensures 0 <= i ==> matches(s[i]) && forall j | 0 <= j < i :: !matches(s[j])
  {
    if |s| == 0 then -1
    else if matches(s[0]) then 0
    else
      var k := FirstIndex(s[1..], matches);
      assert forall j | 1 <= j < |s| :: s[j] == s[1..][j - 1];
      if k == -1 then -1 else k + 1
  }

  /** The elements of `s` that `keep` accepts, in their original order. */
  function Filter<T>(s: seq<T>, keep: T -> bool): (r: seq<T>)
    ensures |r| <= |s|
    ensures forall x | x in r :: x in s && keep(x)
    ensures forall x | x in s && keep(x) :: x in r
  {
    if |s| == 0 then []
    else (if keep(s[0]) then [s[0]] else []) + Filter(s[1..], keep)
  }

  /** No two elements of `s` share a key. */
  ghost predicate DistinctKeys<T, K>(s: seq<T>, key: T -> K) {
    forall i, j | 0 <= i < j < |s| :: key(s[i]) != key(s[j])
  }

  /** Filtering keeps a subsequence, so keys that were distinct stay distinct. */
  lemma {:induction false} FilterKeepsDistinctKeys<T, K>(s: seq<T>, keep: T -> bool, key: T -> K)
    requires DistinctKeys(s, key)
    ensures DistinctKeys(Filter(s, keep), key)
  {
    if |s| > 0 {
      var tail := Filter(s[1..], keep);
      assert DistinctKeys(s[1..], key) by {
        forall i, j | 0 <= i < j < |s[1..]|
          ensures key(s[1..][i]) != key(s[1..][j])
        {
          assert s[1..][i] == s[i + 1] && s[1..][j] == s[j + 1];
        }
      }
      FilterKeepsDistinctKeys(s[1..], keep, key);
      if keep(s[0]) {
        var r := [s[0]] + tail;
        forall j | 1 <= j < |r|
          ensures key(r[0]) != key(r[j])
        {
          assert r[j] in s[1..];
          var m :| 0 <= m < |s[1..]| && s[1..][m] == r[j];
          assert s[1..][m] == s[m + 1];
        }
        assert Filter(s, keep) == r;
      } else {
        assert Filter(s, keep) == tail;
      }
    }
  }

  /** A sequence whose keys are distinct and drawn from `keys` is no longer than `keys`. */
  lemma {:induction false} DistinctKeysBound<T, K>(s: seq<T>, key: T -> K, keys: set<K>)
    requires DistinctKeys(s, key)
    requires forall x | x in s :: key(x) in keys
    ensures |s| <= |keys|
  {
    if |s| > 0 {
      var rest := s[1..];
      var k := key(s[0]);
      assert DistinctKeys(rest, key) by {
        forall i, j | 0 <= i < j < |rest|
          ensures key(rest[i]) != key(rest[j])
        {
          assert rest[i] == s[i + 1] && rest[j] == s[j + 1];
        }
      }
      forall x | x in rest
        ensures key(x) in keys - {k}
      {
        var m :| 0 <= m < |rest| && rest[m] == x;
        assert rest[m] == s[m + 1];
      }
      DistinctKeysBound(rest, key, keys - {k});
    }
  }

  /** The set of elements of a sequence is no larger than the sequence. */
  lemma {:induction false} ElementsBound<T>(s: seq<T>)
    ensures |set x | x in s| <= |s|
  {
    if |s| > 0 {
      ElementsBound(s[1..]);
      assert (set x | x in s) == (set x | x in s[1..]) + {s[0]};
    }
  }
}

=== FILE: decimal.dfy ===
/** Decimal rendering of integer ids, as `strconv.Itoa` produces it. */
module Decimal {

  function DigitChar(d: nat): (c: char)
    requires d < 10
    ensures '0' <= c <= '9'
  {
    (('0' as int) + d) as char
  }

  /** The shortest decimal numeral of `n`, most significant digit first. */
  function NatToString(n: nat): (s: string)
    ensures |s| >= 1
    ensures forall i | 0 <= i < |s| :: '0' <= s[i] <= '9'
    ensures n >= 10 ==> |s| >= 2
    ensures s[0] == '0' <==> n == 0
    decreases n
  {
    if n < 10 then [DigitChar(n)] else NatToString(n / 10) + [DigitChar(n % 10)]
  }

  /** `strconv.Itoa`: a leading '-' for negative values, then the digits of the magnitude. */
  function Itoa(n: int): (s: string)
    ensures |s| >= 1
    ensures n < 0 <==> s[0] == '-'
    ensures forall i | (if n < 0 then 1 else 0) <= i < |s| :: '0' <= s[i] <= '9'
    ensures s[0] == '0' <==> n == 0
    ensures n < 0 ==> |s| >= 2 && s[1] != '0'
  {
    if n < 0 then "-" + NatToString(-n) else NatToString(n)
  }

  lemma {:induction false} NatToStringInjective(a: nat, b: nat)
    requires NatToString(a) == NatToString(b)
    ensures a == b
    decreases a
  {
    var s := NatToString(a);
    if a < 10 && b < 10 {
      assert s[0] == DigitChar(a) && s[0] == DigitChar(b);
    } else if a >= 10 && b >= 10 {
      var n := |s|;
      assert s[n - 1] == DigitChar(a % 10) && s[n - 1] == DigitChar(b % 10);
      assert s[..n - 1] == NatToString(a / 10) && s[..n - 1] == NatToString(b / 10);
      NatToStringInjective(a / 10, b / 10);
    }
  }

  /** Two ids render to the same string exactly when they are the same id. */
  lemma ItoaInjective(a: int, b: int)
    ensures Itoa(a) == Itoa(b) <==> a == b
  {
    if Itoa(a) == Itoa(b) {
      if a < 0 {
        assert Itoa(a)[1..] == NatToString(-a) && Itoa(b)[1..] == NatToString(-b);
        NatToStringInjective(-a, -b);
      } else {
        NatToStringInjective(a, b);
      }
    }
  }
}

=== FILE: middleware.dfy ===
/**
 * The request filters of middleware/middleware.go: bearer-token admission, the admin gate,
 * view-event capture and the per-product view counts. The token library is a parameter:
 * what it returns for a token string is all the filters ever see of it.
 */
module Middleware {
  import opened Common
  import opened Decimal
  import opened Model
  import Accounts

  /** `pat` occurs in `s` starting at position `i`. */
  predicate OccursAt(s: string, pat: string, i: int) {
    0 <= i && i + |pat| <= |s| && s[i..i + |pat|] == pat
  }

  /** `strings.Index`: the first position where `pat` occurs in `s`, or -1. */
  function IndexOf(s: string, pat: string): (i: int)
    ensures -1 <= i <= |s|
    ensures i == -1 <==> forall j | 0 <= j <= |s| :: !OccursAt(s, pat, j)
    ensures i >= 0 ==> OccursAt(s, pat, i) && forall j | 0 <= j < i :: !OccursAt(s, pat, j)
  {
    if |s| < |pat| then
      assert forall j | 0 <= j <= |s| :: !OccursAt(s, pat, j);
      -1
    else if s[..|pat|] == pat then
      assert OccursAt(s, pat, 0);
      0
    else
      var j := IndexOf(s[1..], pat);
      assert !OccursAt(s, pat, 0);
      assert forall k | 1 <= k <= |s| :: OccursAt(s, pat, k) == OccursAt(s[1..], pat, k - 1);
      if j < 0 then -1
      else
        assert OccursAt(s, pat, j + 1);
        j + 1
  }

  /** `strings.Replace(s, target, replacement, 1)`: the first occurrence of `target`, wherever it is, is replaced. */
  function ReplaceFirst(s: string, target: string, replacement: string): string {
    var i := IndexOf(s, target);
    if i < 0 then s else s[..i] + replacement + s[i + |target|..]
  }

  const BearerPrefix: string := "Bearer "

  /** The token `AuthMiddleware` hands to the parser: the header with its first "Bearer " cut out. */
  function TokenFromHeader(header: string): (token: string)
    ensures |token| == |header| || |token| == |header| - |BearerPrefix|
    ensures token == header <==> IndexOf(header, BearerPrefix) < 0
  {
    ReplaceFirst(header, BearerPrefix, "")
  }

  /** The usual header shape: the prefix comes off and the token remains. */
  lemma TokenFromBearerHeader(token: string)
    ensures TokenFromHeader(BearerPrefix + token) == token
  {
    assert OccursAt(BearerPrefix + token, BearerPrefix, 0);
    assert (BearerPrefix + token)[|BearerPrefix|..] == token;
  }

  /**
   * Cutting is undone by putting "Bearer " back where it was found, at its first occurrence;
   * a header without it is passed on whole.
   */
  lemma TokenFromHeaderInverse(header: string)
    ensures var i := IndexOf(header, BearerPrefix);
      var token := TokenFromHeader(header);
      && (i < 0 ==> token == header)
      && (i >= 0 ==> 0 <= i <= |token| && token[..i] + BearerPrefix + token[i..] == header)
  {
    ReplaceFirstDeletionInverse(header, BearerPrefix);
  }

  /** Deleting the first occurrence of `target` is undone by inserting it back at that position. */
  lemma ReplaceFirstDeletionInverse(s: string, target: string)
    ensures var i := IndexOf(s, target);
      var t := ReplaceFirst(s, target, "");
      && (i < 0 ==> t == s)
      && (i >= 0 ==> 0 <= i <= |t| && t[..i] + target + t[i..] == s)
  {
    var i := IndexOf(s, target);
    if i >= 0 {
      SpliceBack(s, i, |target|);
    }
  }

  /** Cutting `n` elements out at `i` and putting the same `n` back restores the sequence. */
  lemma SpliceBack(s: string, i: nat, n: nat)
    requires i + n <= |s|
    ensures var t := s[..i] + "" + s[i + n..];
      t[..i] + s[i..i + n] + t[i..] == s
  {
    var t := s[..i] + "" + s[i + n..];
    assert t[..i] == s[..i];
    assert t[i..] == s[i + n..];
    assert s[..i] + s[i..i + n] + s[i + n..] == s;
  }

  /** The prefix is cut even from the middle of the header, not only from its start. */
  lemma TokenFromHeaderCutsInside()
    ensures TokenFromHeader("xBearer abc") == "xabc"
  {
    var h := "xBearer abc";
    assert !OccursAt(h, BearerPrefix, 0) by { assert h[0] != BearerPrefix[0]; }
    assert OccursAt(h, BearerPrefix, 1) by { assert h[1..8] == BearerPrefix; }
    assert h[..1] + "" + h[8..] == "xabc";
  }

  /** A claim value as decoded from the token's JSON payload. */
  datatype Claim =
    | NumberClaim(seconds: int) // a float64 or int64 value, truncated to whole seconds
    | StringClaim(text: string)
    | OtherClaim // a boolean, null, array or object

  /**
   * What `jwt.ParseWithClaims` leaves behind: whether it returned an error, the token's
   * `Valid` flag, and the claims it managed to decode (filled in even when it errs).
   */
  datatype ParsedToken = ParsedToken(failed: bool, valid: bool, claims: map<string, Claim>)

  /** Why a request was turned away with 401. */
  datatype AuthRejection = HeaderMissing | ExpMissing | ExpUnsupportedType | TokenExpired | TokenInvalid

  /** The outcome of `AuthMiddleware`: continue with the given `email` context value, or 401. */
  datatype AuthVerdict = Admit(email: string) | Reject(reason: AuthRejection)

  const NanosPerSecond: int := 1_000_000_000

  /** The checks before the signature outcome: header present, `exp` present, numeric, not past. */
  function AuthPreflight(header: string, t: ParsedToken, nowNanos: int): Option<AuthRejection> {
    if header == "" then Some(HeaderMissing)
    else if "exp" !in t.claims then Some(ExpMissing)
    else match t.claims["exp"]
      case NumberClaim(seconds) => if nowNanos > seconds * NanosPerSecond then Some(TokenExpired) else None
      case _ => Some(ExpUnsupportedType)
  }

  /** The `email` claim, if it is a string. */
  function EmailClaim(t: ParsedToken): Option<string> {
    if "email" in t.claims && t.claims["email"].StringClaim? then Some(t.claims["email"].text) else None
  }

  /**
   * `AuthMiddleware` as written. After the expiry checks it refuses every token the library
   * accepted (`err == nil || token.Valid`) and every token whose `email` claim is a string;
   * what it lets through carries the empty email. `parse` is the token library and
   * `nowNanos` the clock reading in Unix nanoseconds.
   */
  function AuthMiddleware(header: string, parse: string -> ParsedToken, nowNanos: int): (r: AuthVerdict)
    ensures r == Reject(HeaderMissing) <==> header == ""
    ensures r == Reject(TokenInvalid) <==>
      var t := parse(TokenFromHeader(header));
      && AuthPreflight(header, t, nowNanos).None?
      && (!t.failed || t.valid || EmailClaim(t).Some?)
    ensures r.Admit? <==>
      var t := parse(TokenFromHeader(header));
      && AuthPreflight(header, t, nowNanos).None?
      && t.failed && !t.valid
      && EmailClaim(t).None?
    ensures r.Admit? ==> r.email == ""
    ensures var claims := parse(TokenFromHeader(header)).claims;
      r == Reject(ExpMissing) <==> header != "" && "exp" !in claims
    ensures var claims := parse(TokenFromHeader(header)).claims;
      r == Reject(ExpUnsupportedType) <==> header != "" && "exp" in claims && !claims["exp"].NumberClaim?
    ensures var claims := parse(TokenFromHeader(header)).claims;
      r == Reject(TokenExpired) <==>
        header != "" && "exp" in claims && claims["exp"].NumberClaim?
        && nowNanos > claims["exp"].seconds * NanosPerSecond
  {
    var t := parse(TokenFromHeader(header));
    match AuthPreflight(header, t, nowNanos)
    case Some(reason) => Reject(reason)
    case None =>
      if !t.failed || t.valid then Reject(TokenInvalid)
      else if EmailClaim(t).Some? then Reject(TokenInvalid)
      else Admit("")
  }

  /** The admission rule the filter evidently intends: a verified token that names an email. */
  function AuthMiddlewareIntended(header: string, parse: string -> ParsedToken, nowNanos: int): (r: AuthVerdict)
    ensures header == "" ==> r == Reject(HeaderMissing)
    ensures r.Admit? <==>
      var t := parse(TokenFromHeader(header));
      && AuthPreflight(header, t, nowNanos).None?
      && !t.failed && t.valid
      && EmailClaim(t).Some?
    ensures r.Admit? ==> Some(r.email) == EmailClaim(parse(TokenFromHeader(header)))
  {
    var t := parse(TokenFromHeader(header));
    match AuthPreflight(header, t, nowNanos)
    case Some(reason) => Reject(reason)
    case None =>
      if t.failed || !t.valid then Reject(TokenInvalid)
      else match EmailClaim(t)
        case None => Reject(TokenInvalid)
        case Some(email) => Admit(email)
  }

  /** As written, a token that failed verification gets through once its `exp` is in the future. */
  lemma AuthAdmitsForgedToken(nowNanos: int)
    ensures var forged := ParsedToken(true, false, map["exp" := NumberClaim(nowNanos / NanosPerSecond + 60)]);
      && AuthMiddleware("Bearer forged", _ => forged, nowNanos) == Admit("")
      && AuthMiddlewareIntended("Bearer forged", _ => forged, nowNanos) == Reject(TokenInvalid)
  {
    var forged := ParsedToken(true, false, map["exp" := NumberClaim(nowNanos / NanosPerSecond + 60)]);
    assert "email" !in forged.claims;
  }

  /**
   * The two rules agree up to the expiry check and never admit the same request: exactly the
   * requests the intended rule admits are the ones the written rule refuses after that check.
   */
  lemma AuthWrittenAndIntendedDisagree(header: string, parse: string -> ParsedToken, nowNanos: int)
    ensures var t := parse(TokenFromHeader(header));
      AuthPreflight(header, t, nowNanos).Some? ==>
        AuthMiddleware(header, parse, nowNanos) == AuthMiddlewareIntended(header, parse, nowNanos)
    ensures !(AuthMiddleware(header, parse, nowNanos).Admit? && AuthMiddlewareIntended(header, parse, nowNanos).Admit?)
  {
  }

  /** How a filter ends: the chain goes on to the handler, or it stops with a status. */
  datatype Verdict = Next | Abort(status: int)

  const StatusUnauthorized: int := 401
  const StatusInternalServerError: int := 500

  /** The role check on the user a numeric id names. */
  function AdminCheck(s: Store, userId: int): (v: Verdict)
    ensures v == Next <==> Accounts.GetUserByID(s.users, userId).Ok? && Accounts.GetUserByID(s.users, userId).value.role == "admin"
    ensures v != Next ==> v.status in {StatusUnauthorized, StatusInternalServerError}
    ensures v == Abort(StatusInternalServerError) <==> Accounts.GetUserByID(s.users, userId).Err?
  {
    match Accounts.GetUserByID(s.users, userId)
    case Err(_) => Abort(StatusInternalServerError)
    case Ok(user) => if user.role != "admin" then Abort(StatusUnauthorized) else Next
  }

  /**
   * `AdminMiddleware` as written: no header means guest id 0; a header the token library
   * cannot read (`parseToken` gives `None`) makes the filter return without aborting, so the
   * chain goes on with no role check at all.
   */
  function AdminMiddleware(s: Store, header: string, parseToken: string -> Option<int>): (v: Verdict)
    ensures header == "" ==> v == AdminCheck(s, 0)
    ensures header != "" && parseToken(header).None? ==> v == Next
    ensures header != "" && parseToken(header).Some? ==> v == AdminCheck(s, parseToken(header).value)
  {
    if header == "" then AdminCheck(s, 0)
    else match parseToken(header)
      case None => Next
      case Some(userId) => AdminCheck(s, userId)
  }

  /** The gate as evidently intended: an unreadable token is refused with 401. */
  function AdminMiddlewareIntended(s: Store, header: string, parseToken: string -> Option<int>): (v: Verdict)
    ensures header != "" && parseToken(header).None? ==> v == Abort(StatusUnauthorized)
    ensures v == Next ==> exists u | u in s.users :: u.role == "admin"
  {
    if header == "" then AdminCheck(s, 0)
    else match parseToken(header)
      case None => Abort(StatusUnauthorized)
      case Some(userId) => AdminCheck(s, userId)
  }

  /** As written, any unreadable token passes the gate, even with no admin in the store. */
  lemma AdminPassesUnreadableToken(s: Store, header: string, parseToken: string -> Option<int>)
    requires header != "" && parseToken(header).None?
    ensures AdminMiddleware(s, header, parseToken) == Next
    ensures AdminMiddlewareIntended(s, header, parseToken) == Abort(StatusUnauthorized)
  {
  }

  /** Wherever the token is readable or absent the two gates agree. */
  lemma AdminGatesAgreeOnReadableTokens(s: Store, header: string, parseToken: string -> Option<int>)
    requires header == "" || parseToken(header).Some?
    ensures AdminMiddleware(s, header, parseToken) == AdminMiddlewareIntended(s, header, parseToken)
  {
  }

  /** In a valid store a guest (no header) is refused with 500, since no user has id 0. */
  lemma AdminRefusesGuest(s: Store, parseToken: string -> Option<int>)
    requires Valid(s)
    ensures AdminMiddleware(s, "", parseToken) == Abort(StatusInternalServerError)
  {
    assert forall u | u in s.users :: u.id != 0 by {
      forall u | u in s.users ensures u.id != 0 {
        var i :| 0 <= i < |s.users| && s.users[i] == u;
      }
    }
  }

  /** The intended gate admits only a user the store holds with role "admin", under the token's id. */
  lemma AdminIntendedAdmitsOnlyAdmins(s: Store, header: string, parseToken: string -> Option<int>)
    requires AdminMiddlewareIntended(s, header, parseToken) == Next
    ensures var userId := if header == "" then 0 else parseToken(header).value;
      exists u | u in s.users :: u.id == userId && u.role == "admin"
  {
    var userId := if header == "" then 0 else parseToken(header).value;
    var u := Accounts.GetUserByID(s.users, userId).value;
    assert u in s.users && u.id == userId && u.role == "admin";
  }

  /** The middleware's `GetProductsByID`: the empty id is refused before the store is asked. */
  function GetProductsByID(s: Store, key: string): (r: Result<Product>)
    ensures key == "" ==> r == Err(EmptyProductId)
    ensures r.Ok? ==> r.value in s.products && ProductKey(r.value) == key
    ensures r.Err? <==> key == "" || forall p | p in s.products :: ProductKey(p) != key
    ensures r.Err? && key != "" ==> r.error == RecordNotFound
  {
    if key == "" then Err(EmptyProductId) else LookupProduct(s.products, key)
  }

  /** The empty-id guard changes only the error kind: no product's key is empty. */
  lemma EmptyKeyFindsNothing(s: Store)
    ensures LookupProduct(s.products, "").Err?
    ensures GetProductsByID(s, "").Err?
  {
  }

  /** A filter's effect: the store afterwards and how the chain goes on. */
  datatype Filtered = Filtered(store: Store, verdict: Verdict)

  /** The view event `WebTrackingMiddleware` records for product `p` reached under `routeId`. */
  function ViewEvent(id: nat, routeId: string, p: Product): WebTracking {
    WebTracking(id, routeId, "", p.productName, p.category, p.attributes)
  }

  /**
   * `WebTrackingMiddleware`: a product that cannot be found is passed on silently; otherwise a
   * view event is inserted, and a failed insert stops the chain with 500.
   */
  function WebTrackingMiddleware(s: Store, routeId: string, createFails: bool): (r: Filtered)
    ensures GetProductsByID(s, routeId).Err? ==> r == Filtered(s, Next)
    ensures GetProductsByID(s, routeId).Ok? && createFails ==> r == Filtered(s, Abort(StatusInternalServerError))
    ensures GetProductsByID(s, routeId).Ok? && !createFails ==>
      var p := GetProductsByID(s, routeId).value;
      && r.verdict == Next
      && r.store.tracking == s.tracking + [ViewEvent(s.nextTrackingId, routeId, p)]
    ensures r.store.(tracking := s.tracking, nextTrackingId := s.nextTrackingId) == s
  {
    match GetProductsByID(s, routeId)
    case Err(_) => Filtered(s, Next)
    case Ok(p) =>
      if createFails then Filtered(s, Abort(StatusInternalServerError))
      else
        Filtered(s.(tracking := s.tracking + [ViewEvent(s.nextTrackingId, routeId, p)],
                    nextTrackingId := s.nextTrackingId + 1), Next)
  }

  /** The number of view events logged under `id`. */
  function Views(tracking: seq<WebTracking>, id: string): nat {
    if |tracking| == 0 then 0
    else Views(tracking[..|tracking| - 1], id) + (if tracking[|tracking| - 1].productId == id then 1 else 0)
  }

  /** A recorded view raises its product's view count by one and no other count. */
  lemma WebTrackingCountsOneView(s: Store, routeId: string, id: string)
    requires GetProductsByID(s, routeId).Ok?
    ensures var t := WebTrackingMiddleware(s, routeId, false).store;
      Views(t.tracking, id) == Views(s.tracking, id) + (if id == routeId then 1 else 0)
  {
    var t := WebTrackingMiddleware(s, routeId, false).store;
    assert t.tracking[..|t.tracking| - 1] == s.tracking;
  }

  /**
   * The grouped counts restricted to non-empty ids: the loop of `getProductCounts`, in which
   * a later row for the same id overwrites an earlier one.
   */
  function NonEmptyCounts(rows: seq<GroupRow>): map<string, int> {
    if |rows| == 0 then map[]
    else
      var last := rows[|rows| - 1];
      var front := NonEmptyCounts(rows[..|rows| - 1]);
      if last.productId != "" then front[last.productId := last.count] else front
  }

  /** `getProductCounts`: the per-product counts from the grouped rows, never keyed by "". */
  function ProductCounts(rows: seq<GroupRow>): (r: map<string, int>)
    ensures "" !in r
  {
    NonEmptyCounts(rows) - {""}
  }

  /** The loop that skips "" builds exactly the non-empty part of the plain overwrite map. */
  lemma {:induction false} NonEmptyCountsRestrictsAll(rows: seq<GroupRow>, k: string)
    ensures k in NonEmptyCounts(rows) <==> k != "" && k in Accounts.AllCounts(rows)
    ensures k in NonEmptyCounts(rows) ==> NonEmptyCounts(rows)[k] == Accounts.AllCounts(rows)[k]
  {
    if |rows| > 0 {
      NonEmptyCountsRestrictsAll(rows[..|rows| - 1], k);
    }
  }

  /** The user controller's count map and the middleware's are the same map. */
  lemma WebTrackingCountMatchesProductCounts(rows: seq<GroupRow>)
    ensures Accounts.WebTrackingCount(rows) == ProductCounts(rows)
  {
    forall k {
      NonEmptyCountsRestrictsAll(rows, k);
    }
  }

  /** An id has a positive view count exactly when some logged event carries it. */
  lemma {:induction false} ViewsPositive(tracking: seq<WebTracking>, id: string)
    ensures Views(tracking, id) > 0 <==> exists j | 0 <= j < |tracking| :: tracking[j].productId == id
  {
    if |tracking| > 0 {
      var front := tracking[..|tracking| - 1];
      ViewsPositive(front, id);
      if exists j | 0 <= j < |front| :: front[j].productId == id {
        var j :| 0 <= j < |front| && front[j].productId == id;
        assert tracking[j].productId == id;
      }
      if exists j | 0 <= j < |tracking| :: tracking[j].productId == id {
        var j :| 0 <= j < |tracking| && tracking[j].productId == id;
        if j < |front| { assert front[j].productId == id; }
      }
    }
  }

  /** The ids the grouped rows carry. */
  function GroupIds(rows: seq<GroupRow>): set<string> {
    set r | r in rows :: r.productId
  }

  /**
   * The rows `SELECT product_id, COUNT(*) ... GROUP BY product_id` returns over `tracking`:
   * one row per logged id, in some order, each with that id's number of events.
   */
  ghost predicate GroupedBy(rows: seq<GroupRow>, tracking: seq<WebTracking>) {
    && (forall i, j | 0 <= i < j < |rows| :: rows[i].productId != rows[j].productId)
    && (forall i | 0 <= i < |rows| :: rows[i].count == Views(tracking, rows[i].productId) > 0)
    && (forall j | 0 <= j < |tracking| :: tracking[j].productId in GroupIds(rows))
  }

  /** Over a grouping of the tracking table, the count map holds exactly the non-empty ids that were viewed. */
  lemma ProductCountsKeys(rows: seq<GroupRow>, tracking: seq<WebTracking>, k: string)
    requires GroupedBy(rows, tracking)
    ensures k in ProductCounts(rows) <==> k != "" && exists j | 0 <= j < |tracking| :: tracking[j].productId == k
  {
    NonEmptyCountsRestrictsAll(rows, k);
    Accounts.AllCountsKeys(rows, k);
    ViewsPositive(tracking, k);
    if k in ProductCounts(rows) {
      var i :| 0 <= i < |rows| && rows[i].productId == k;
      assert Views(tracking, k) > 0;
    }
  }

  /** Over a grouping of the tracking table, each count is its id's number of view events. */
  lemma ProductCountsAreViews(rows: seq<GroupRow>, tracking: seq<WebTracking>, k: string)
    requires GroupedBy(rows, tracking)
    requires k in ProductCounts(rows)
    ensures ProductCounts(rows)[k] == Views(tracking, k)
  {
    NonEmptyCountsRestrictsAll(rows, k);
    Accounts.AllCountsKeys(rows, k);
    var i :| 0 <= i < |rows| && rows[i].productId == k;
    Accounts.AllCountsLastWins(rows, i);
  }
}

=== FILE: model.dfy ===
/**
 * The records of the shop and the store that holds them: one row sequence per table,
 * in insertion order, plus the auto-increment counter of each table.
 */
module Model {
  import opened Common
  import opened Decimal

  /** Prices are only ever copied, never computed, so whole cents stand in for the float. */
  type Price = int

  /** Go's `int` on a 64-bit platform: the width of a product's inventory. */
  newtype Int64 = x: int | -0x8000_0000_0000_0000 <= x < 0x8000_0000_0000_0000

  const Int64Min: Int64 := -0x8000_0000_0000_0000
  const Int64Max: Int64 := 0x7FFF_FFFF_FFFF_FFFF

  /** The modulus of 64-bit two's-complement arithmetic. */
  const TwoTo64: int := 0x1_0000_0000_0000_0000

  /** A catalogue row (model/product.go). */
  datatype Product = Product(
    id: int,
    category: string,
    productName: string,
    description: string,
    price: Price,
    attributes: string,
    inventory: Int64)

  /** An order-ledger row (model/order.go). */
  datatype Order = Order(id: int, productId: int, quantity: int, totalPrice: Price, userId: int)

  /** A user row (model/user.go); `password` holds whatever the handler stored. */
  datatype User = User(id: nat, fullName: string, email: string, password: string, role: string)

  /** A logged product view (model/user.go, WebTracking); the product id is kept as the route text. */
  datatype WebTracking = WebTracking(
    id: nat,
    productId: string,
    event: string,
    productName: string,
    category: string,
    attributes: string)

  /** One row of `SELECT product_id, COUNT(*) ... GROUP BY product_id` over the tracking table. */
  datatype GroupRow = GroupRow(productId: string, count: int)

  datatype Store = Store(
    products: seq<Product>,
    orders: seq<Order>,
    users: seq<User>,
    tracking: seq<WebTracking>,
    nextProductId: int,
    nextOrderId: int,
    nextUserId: nat,
    nextTrackingId: nat)

  /** A store transition: the store afterwards and what the handler reported. */
  datatype Step<T> = Step(store: Store, result: Result<T>)

  /** Product ids are unique and were all handed out by the counter, which starts at 1. */
  ghost predicate ValidProducts(rows: seq<Product>, next: int) {
    && 1 <= next
    && (forall i | 0 <= i < |rows| :: 1 <= rows[i].id < next)
    && (forall i, j | 0 <= i < j < |rows| :: rows[i].id != rows[j].id)
  }

  /** User ids are unique and were all handed out by the counter, which starts at 1. */
  ghost predicate ValidUsers(rows: seq<User>, next: nat) {
    && 1 <= next
    && (forall i | 0 <= i < |rows| :: 1 <= rows[i].id < next)
    && (forall i, j | 0 <= i < j < |rows| :: rows[i].id != rows[j].id)
  }

  ghost predicate Valid(s: Store) {
    ValidProducts(s.products, s.nextProductId) && ValidUsers(s.users, s.nextUserId)
  }

  /** The route text that addresses a product: its id in decimal. */
  function ProductKey(p: Product): string {
    Itoa(p.id)
  }

  /** The route text that addresses a user: its id in decimal. */
  function UserKey(u: User): string {
    Itoa(u.id)
  }

  /** Position of the row `Where("id = ?", key).First(...)` returns, or -1. */
  function ProductIndex(rows: seq<Product>, key: string): (i: int)
    ensures -1 <= i < |rows|
    ensures i == -1 <==> forall p | p in rows :: ProductKey(p) != key
    ensures 0 <= i ==> ProductKey(rows[i]) == key && forall j | 0 <= j < i :: ProductKey(rows[j]) != key
  {
    FirstIndex(rows, (p: Product) => ProductKey(p) == key)
  }

  /** The product a route id addresses (`GetProductsByID` / `GetProductsByIDs`). */
  function LookupProduct(rows: seq<Product>, key: string): (r: Result<Product>)
    ensures r.Ok? ==> r.value in rows && ProductKey(r.value) == key
    ensures r.Err? <==> forall p | p in rows :: ProductKey(p) != key
    ensures r.Err? ==> r.error == RecordNotFound
  {
    var i := ProductIndex(rows, key);
    if i < 0 then Err(RecordNotFound) else Ok(rows[i])
  }

  /** In a valid table, a product's own key finds exactly that product. */
  lemma LookupProductFindsRow(rows: seq<Product>, next: int, p: Product)
    requires ValidProducts(rows, next)
    requires p in rows
    ensures LookupProduct(rows, ProductKey(p)) == Ok(p)
    ensures ProductIndex(rows, ProductKey(p)) >= 0 && rows[ProductIndex(rows, ProductKey(p))] == p
  {
    var i := ProductIndex(rows, ProductKey(p));
    var j :| 0 <= j < |rows| && rows[j] == p;
    ItoaInjective(rows[i].id, p.id);
    assert i == j;
  }

  /** In a valid table, distinct rows have distinct keys. */
  lemma ProductKeysDistinct(rows: seq<Product>, next: int)
    requires ValidProducts(rows, next)
    ensures DistinctKeys(rows, ProductKey)
  {
    forall i, j | 0 <= i < j < |rows|
      ensures ProductKey(rows[i]) != ProductKey(rows[j])
    {
      ItoaInjective(rows[i].id, rows[j].id);
    }
  }

  /** Position of the user `Where("id = ?", key).First(...)` returns, or -1. */
  function UserIndex(rows: seq<User>, key: string): (i: int)
    ensures -1 <= i < |rows|
    ensures i == -1 <==> forall u | u in rows :: UserKey(u) != key
    ensures 0 <= i ==> UserKey(rows[i]) == key && forall j | 0 <= j < i :: UserKey(rows[j]) != key
  {
    FirstIndex(rows, (u: User) => UserKey(u) == key)
  }

  /** In a valid table, a user's own key finds exactly that user. */
  lemma UserIndexFindsRow(rows: seq<User>, next: nat, i: int)
    requires ValidUsers(rows, next)
    requires 0 <= i < |rows|
    ensures UserIndex(rows, UserKey(rows[i])) == i
  {
    var k := UserIndex(rows, UserKey(rows[i]));
    ItoaInjective(rows[k].id, rows[i].id);
  }

  /** Removes the row at position `i`, keeping the others in order. */
  function RemoveAt<T>(s: seq<T>, i: int): (r: seq<T>)
    requires 0 <= i < |s|
    ensures |r| == |s| - 1
    ensures forall j | 0 <= j < i :: r[j] == s[j]
    ensures forall j | i <= j < |r| :: r[j] == s[j + 1]
  {
    s[..i] + s[i + 1..]
  }

  /** Removing position `i` keeps every other element and adds none. */
  lemma RemoveAtMembers<T>(s: seq<T>, i: int)
    requires 0 <= i < |s|
    ensures forall x | x in RemoveAt(s, i) :: x in s
    ensures forall j | 0 <= j < |s| && j != i :: s[j] in RemoveAt(s, i)
  {
    var r := RemoveAt(s, i);
    forall x | x in r
      ensures x in s
    {
      var j :| 0 <= j < |r| && r[j] == x;
      if j < i { assert s[j] == x; } else { assert s[j + 1] == x; }
    }
    forall j | 0 <= j < |s| && j != i
      ensures s[j] in r
    {
      if j < i { assert r[j] == s[j]; } else { assert r[j - 1] == s[j]; }
    }
  }
}

=== FILE: purchase.dfy ===
/**
 * The purchase flow of controllers/purchaseProductController.go: look the product up,
 * write its inventory minus one, then insert a quantity-1 order. The two writes are not
 * in a transaction, so a failed order insert leaves the decrement in place.
 */
module Purchase {
  import opened Common
  import opened Model

  /** Which of the two writes of a purchase the store rejects. */
  datatype PurchaseFaults = PurchaseFaults(inventoryWriteFails: bool, orderWriteFails: bool)

  /** Writes `inventory` into every row whose id is `id`; no other field and no other row changes. */
  function SetInventory(rows: seq<Product>, id: int, inventory: Int64): (r: seq<Product>)
    ensures |r| == |rows|
    ensures forall i | 0 <= i < |rows| :: r[i].(inventory := rows[i].inventory) == rows[i]
    ensures forall i | 0 <= i < |rows| && rows[i].id == id :: r[i].inventory == inventory
    ensures forall i | 0 <= i < |rows| && rows[i].id != id :: r[i] == rows[i]
  {
    seq(|rows|, i requires 0 <= i < |rows| => if rows[i].id == id then rows[i].(inventory := inventory) else rows[i])
  }

  /** `x--` on a Go `int`: two's-complement, so the least value wraps round to the greatest. */
  function Decrement(x: Int64): (r: Int64)
    ensures (r as int - (x as int - 1)) % TwoTo64 == 0
    ensures x != Int64Min ==> r as int == x as int - 1
  {
    if x == Int64Min then Int64Max else x - 1
  }

  /** The units of product `id` the order ledger records. */
  function OrderedUnits(orders: seq<Order>, id: int): int {
    if |orders| == 0 then 0
    else
      var last := orders[|orders| - 1];
      OrderedUnits(orders[..|orders| - 1], id) + (if last.productId == id then last.quantity else 0)
  }

  lemma OrderedUnitsAppend(orders: seq<Order>, o: Order, id: int)
    ensures OrderedUnits(orders + [o], id) == OrderedUnits(orders, id) + (if o.productId == id then o.quantity else 0)
  {
    assert (orders + [o])[..|orders|] == orders;
  }

  /** `UpdateProductInventory`: the product's own inventory value, decremented, is written back. */
  function UpdateProductInventory(s: Store, product: Product, fails: bool): (r: Step<()>)
    ensures fails ==> r == Step(s, Err(WriteFailed))
    ensures !fails ==> r.result.Ok?
    ensures r.store.(products := s.products) == s
    ensures |r.store.products| == |s.products|
    ensures !fails ==> forall i | 0 <= i < |s.products| ::
      r.store.products[i] ==
        if s.products[i].id == product.id then s.products[i].(inventory := Decrement(product.inventory)) else s.products[i]
  {
    if fails then Step(s, Err(WriteFailed))
    else Step(s.(products := SetInventory(s.products, product.id, Decrement(product.inventory))), Ok(()))
  }

  /** `CreateOrder`: the store assigns the next order id and appends the row. */
  function CreateOrder(s: Store, order: Order, fails: bool): (r: Step<()>)
    ensures fails ==> r == Step(s, Err(WriteFailed))
    ensures !fails ==> r.result.Ok? && r.store.orders == s.orders + [order.(id := s.nextOrderId)]
    ensures !fails ==> r.store.nextOrderId > s.nextOrderId
    ensures r.store.(orders := s.orders, nextOrderId := s.nextOrderId) == s
  {
    if fails then Step(s, Err(WriteFailed))
    else Step(s.(orders := s.orders + [order.(id := s.nextOrderId)], nextOrderId := s.nextOrderId + 1), Ok(()))
  }

  /** The order a purchase of `product` writes: one unit at the current price, no user. */
  function PurchaseOrder(product: Product): Order {
    Order(0, product.id, 1, product.price, 0)
  }

  /** `PerformPurchase`: decrement first, then the order; the first failure is returned as is. */
  function PerformPurchase(s: Store, product: Product, faults: PurchaseFaults): (r: Step<()>)
    ensures r.result.Ok? <==> !faults.inventoryWriteFails && !faults.orderWriteFails
    ensures r.result.Err? ==> r.result.error == WriteFailed
    ensures faults.inventoryWriteFails ==> r.store == s
    ensures !faults.inventoryWriteFails ==>
      r.store.products == UpdateProductInventory(s, product, false).store.products
    ensures r.result.Ok? ==>
      r.store.orders == s.orders + [Order(s.nextOrderId, product.id, 1, product.price, 0)]
    ensures r.result.Err? ==> r.store.orders == s.orders
    ensures r.store.users == s.users && r.store.tracking == s.tracking
    ensures r.store.(products := s.products, orders := s.orders, nextOrderId := s.nextOrderId) == s
    ensures r.result.Ok? ==> r.store.nextOrderId > s.nextOrderId
    ensures r.result.Err? ==> r.store.nextOrderId == s.nextOrderId
  {
    var updated := UpdateProductInventory(s, product, faults.inventoryWriteFails);
    if updated.result.Err? then updated
    else CreateOrder(updated.store, PurchaseOrder(product), faults.orderWriteFails)
  }

  /** `PurchaseProduct`: the handler behind `POST /products/purchase/:id`. */
  function PurchaseProduct(s: Store, key: string, faults: PurchaseFaults): (r: Step<()>)
    ensures LookupProduct(s.products, key).Err? ==> r == Step(s, Err(InvalidProductId))
    ensures r.result.Ok? <==>
      LookupProduct(s.products, key).Ok? && !faults.inventoryWriteFails && !faults.orderWriteFails
    ensures LookupProduct(s.products, key).Ok? && r.result.Err? ==> r.result.error == PurchaseFailed
    ensures faults.inventoryWriteFails ==> r.store == s
    ensures r.result.Ok? ==> var p := LookupProduct(s.products, key).value;
      r.store.orders == s.orders + [Order(s.nextOrderId, p.id, 1, p.price, 0)]
    ensures r.result.Err? ==> r.store.orders == s.orders
    ensures r.store.users == s.users && r.store.tracking == s.tracking
    ensures r.store.(products := s.products, orders := s.orders, nextOrderId := s.nextOrderId) == s
    ensures r.result.Ok? ==> r.store.nextOrderId > s.nextOrderId
    ensures r.result.Err? ==> r.store.nextOrderId == s.nextOrderId
    ensures LookupProduct(s.products, key).Ok? && !faults.inventoryWriteFails ==>
      r.store.products == UpdateProductInventory(s, LookupProduct(s.products, key).value, false).store.products
  {
    var lookup := LookupProduct(s.products, key);
    if lookup.Err? then Step(s, Err(InvalidProductId))
    else
      var done := PerformPurchase(s, lookup.value, faults);
      if done.result.Err? then Step(done.store, Err(PurchaseFailed)) else done
  }

  /** A purchase writes no product field but the inventory, and adds or removes no product. */
  lemma PurchaseWritesOnlyInventory(s: Store, key: string, faults: PurchaseFaults)
    ensures var t := PurchaseProduct(s, key, faults).store;
      && |t.products| == |s.products|
      && forall i | 0 <= i < |s.products| :: t.products[i].(inventory := s.products[i].inventory) == s.products[i]
  {
    if LookupProduct(s.products, key).Ok? && !faults.inventoryWriteFails {
      PurchaseWritesInventory(s, key, faults);
    }
  }

  /** A purchase keeps product ids unique and inside the counter's range, whatever fails. */
  lemma PurchasePreservesValid(s: Store, key: string, faults: PurchaseFaults)
    requires Valid(s)
    ensures Valid(PurchaseProduct(s, key, faults).store)
  {
    var t := PurchaseProduct(s, key, faults).store;
    PurchaseWritesOnlyInventory(s, key, faults);
    assert forall i | 0 <= i < |s.products| :: t.products[i].id == s.products[i].id by {
      forall i | 0 <= i < |s.products| ensures t.products[i].id == s.products[i].id {
        assert t.products[i].(inventory := s.products[i].inventory) == s.products[i];
      }
    }
  }

  /**
   * Once the lookup succeeds and the decrement is written, every row carrying the product's id
   * holds the looked-up inventory decremented, and every other row is untouched.
   */
  lemma PurchaseWritesInventory(s: Store, key: string, faults: PurchaseFaults)
    requires LookupProduct(s.products, key).Ok? && !faults.inventoryWriteFails
    ensures var p := LookupProduct(s.products, key).value;
      var t := PurchaseProduct(s, key, faults).store;
      && |t.products| == |s.products|
      && forall i | 0 <= i < |s.products| ::
           t.products[i] == if s.products[i].id == p.id then s.products[i].(inventory := Decrement(p.inventory)) else s.products[i]
  {
    var p := LookupProduct(s.products, key).value;
    assert PurchaseProduct(s, key, faults).store == PerformPurchase(s, p, faults).store;
  }

  /**
   * Once the decrement is written the product's inventory is exactly one lower, whether or not
   * the order follows; there is no floor, so an inventory at or below zero goes negative, and
   * the least 64-bit value wraps round to the greatest.
   */
  lemma PurchaseDecrementsStock(s: Store, key: string, faults: PurchaseFaults)
    requires LookupProduct(s.products, key).Ok? && !faults.inventoryWriteFails
    ensures var k := ProductIndex(s.products, key);
      var after := PurchaseProduct(s, key, faults).store.products[k].inventory;
      && (s.products[k].inventory != Int64Min ==> after as int == s.products[k].inventory as int - 1)
      && (s.products[k].inventory == Int64Min ==> after == Int64Max)
  {
    assert LookupProduct(s.products, key).value == s.products[ProductIndex(s.products, key)];
    PurchaseWritesInventory(s, key, faults);
  }

  /**
   * A successful purchase moves one unit from the shelf to the ledger: the total is kept, except
   * that a wrapped inventory adds 2^64 to it.
   */
  lemma PurchaseConservesUnits(s: Store, key: string, faults: PurchaseFaults)
    requires PurchaseProduct(s, key, faults).result.Ok?
    ensures var k := ProductIndex(s.products, key);
      var t := PurchaseProduct(s, key, faults).store;
      t.products[k].inventory as int + OrderedUnits(t.orders, s.products[k].id)
      == s.products[k].inventory as int + OrderedUnits(s.orders, s.products[k].id)
         + (if s.products[k].inventory == Int64Min then TwoTo64 else 0)
  {
    var p := LookupProduct(s.products, key).value;
    assert p == s.products[ProductIndex(s.products, key)];
    PurchaseDecrementsStock(s, key, faults);
    OrderedUnitsAppend(s.orders, Order(s.nextOrderId, p.id, 1, p.price, 0), p.id);
  }

  /**
   * There is no rollback: when the order insert fails after the decrement, the unit leaves
   * the shelf without reaching the ledger.
   */
  lemma FailedOrderLosesUnit(s: Store, key: string, faults: PurchaseFaults)
    requires LookupProduct(s.products, key).Ok?
    requires !faults.inventoryWriteFails && faults.orderWriteFails
    ensures var k := ProductIndex(s.products, key);
      var r := PurchaseProduct(s, key, faults);
      && r.result == Err(PurchaseFailed)
      && r.store.products[k].inventory as int + OrderedUnits(r.store.orders, s.products[k].id)
         == s.products[k].inventory as int + OrderedUnits(s.orders, s.products[k].id) - 1
            + (if s.products[k].inventory == Int64Min then TwoTo64 else 0)
  {
    PurchaseDecrementsStock(s, key, faults);
  }
}

=== FILE: recommend.dfy ===
/**
 * The related-products recommender of controllers/top5Products.go: count the logged views of
 * same-category products, rank the ids by count, keep the first five that are not the
 * viewed product itself, and fetch those rows.
 */
module Recommend {
  import opened Common
  import opened Decimal
  import opened Model

  /** At most this many related products are recommended. */
  const RelatedLimit: nat := 5

  /** One row of the ranking: a product id as logged, and its number of same-category views. */
  datatype Entry = Entry(productId: string, count: nat)

  /** The products of one category (`GetProductsByCategory`). */
  function GetProductsByCategory(rows: seq<Product>, category: string): (r: seq<Product>)
    ensures forall p | p in r :: p in rows && p.category == category
    ensures forall p | p in rows && p.category == category :: p in r
  {
    Filter(rows, (p: Product) => p.category == category)
  }

  /** The products whose key is one of `ids` (`GetProductsByIDs1`, an `IN` query). */
  function GetProductsByIDs1(rows: seq<Product>, ids: seq<string>): (r: seq<Product>)
    ensures forall p | p in r :: p in rows && ProductKey(p) in ids
    ensures forall p | p in rows && ProductKey(p) in ids :: p in r
  {
    Filter(rows, (p: Product) => ProductKey(p) in ids)
  }

  /** The logged product ids of the views in `category`, in log order. */
  function SameCategoryIds(events: seq<WebTracking>, category: string): seq<string>
  {
    if |events| == 0 then []
    else
      var last := events[|events| - 1];
      SameCategoryIds(events[..|events| - 1], category)
      + (if last.category == category then [last.productId] else [])
  }

  /** The positions of the logged views in `category` that carry product id `id`. */
  function ViewIndices(events: seq<WebTracking>, category: string, id: string): set<int> {
    set i | 0 <= i < |events| && events[i].category == category && events[i].productId == id
  }

  /** The number of logged views in `category` that carry product id `id`. */
  function ViewsOf(events: seq<WebTracking>, category: string, id: string): nat {
    |ViewIndices(events, category, id)|
  }

  lemma ViewIndicesStep(events: seq<WebTracking>, category: string, id: string)
    requires |events| > 0
    ensures var n := |events| - 1;
      ViewIndices(events, category, id) ==
      ViewIndices(events[..n], category, id)
      + (if events[n].category == category && events[n].productId == id then {n} else {})
  {
    var n := |events| - 1;
    assert forall i | 0 <= i < n :: events[..n][i] == events[i];
  }

  /** Each id occurs in `SameCategoryIds` once per same-category view carrying it. */
  lemma {:induction false} SameCategoryIdsCountViews(events: seq<WebTracking>, category: string, id: string)
    ensures multiset(SameCategoryIds(events, category))[id] == ViewsOf(events, category, id)
  {
    if |events| > 0 {
      var n := |events| - 1;
      SameCategoryIdsCountViews(events[..n], category, id);
      ViewIndicesStep(events, category, id);
      assert n !in ViewIndices(events[..n], category, id);
    }
  }

  /** `counts` maps exactly the elements of `bag`, each to its multiplicity. */
  ghost predicate Tallies(counts: map<string, nat>, bag: multiset<string>) {
    && (forall k | k in counts :: counts[k] == bag[k] && counts[k] > 0)
    && (forall k | k in bag :: k in counts)
  }

  /** `counts` maps exactly the viewed same-category ids, each to its number of views. */
  ghost predicate IsBehaviorCount(counts: map<string, nat>, events: seq<WebTracking>, category: string) {
    Tallies(counts, multiset(SameCategoryIds(events, category)))
  }

  /** `counts[id]++` on a Go map: an absent key reads as zero. */
  function Bump(counts: map<string, nat>, id: string): map<string, nat> {
    counts[id := if id in counts then counts[id] + 1 else 1]
  }

  /** Bumping a key tallies the bag with one more copy of it. */
  lemma TalliesAdd(counts: map<string, nat>, bag: multiset<string>, id: string)
    requires Tallies(counts, bag)
    ensures Tallies(Bump(counts, id), bag + multiset{id})
  {
  }

  /** Extending the log by one view extends the same-category ids by at most that view's id. */
  lemma SameCategoryIdsStep(events: seq<WebTracking>, category: string, i: nat)
    requires i < |events|
    ensures multiset(SameCategoryIds(events[..i + 1], category))
      == multiset(SameCategoryIds(events[..i], category))
      + if events[i].category == category then multiset{events[i].productId} else multiset{}
  {
    assert events[..i + 1][..i] == events[..i];
  }

  /** One pass of the grouping loop: `behaviorCounts[id]++` for a same-category view. */
  lemma CountStep(counts: map<string, nat>, events: seq<WebTracking>, category: string, i: nat)
    requires i < |events|
    requires IsBehaviorCount(counts, events[..i], category)
    ensures var id := events[i].productId;
      IsBehaviorCount(
        if events[i].category == category then Bump(counts, id) else counts,
        events[..i + 1], category)
  {
    SameCategoryIdsStep(events, category, i);
    if events[i].category == category {
      TalliesAdd(counts, multiset(SameCategoryIds(events[..i], category)), events[i].productId);
    }
  }

  /** The grouping loop of `GetRelatedProducts`: one increment per same-category view. */
  method CountBehaviors(events: seq<WebTracking>, category: string) returns (counts: map<string, nat>)
    ensures IsBehaviorCount(counts, events, category)
    ensures forall k | k in counts :: counts[k] == ViewsOf(events, category, k) && counts[k] > 0
  {
    counts := map[];
    var i := 0;
    while i < |events|
      invariant 0 <= i <= |events|
      invariant IsBehaviorCount(counts, events[..i], category)
    {
      CountStep(counts, events, category, i);
      if events[i].category == category {
        counts := Bump(counts, events[i].productId);
      }
      i := i + 1;
    }
    assert events[..i] == events;
    BehaviorCountIsViews(counts, events, category);
  }

  /** A behaviour count holds, for each of its ids, that id's positive number of same-category views. */
  lemma BehaviorCountIsViews(counts: map<string, nat>, events: seq<WebTracking>, category: string)
    requires IsBehaviorCount(counts, events, category)
    ensures forall k | k in counts :: counts[k] == ViewsOf(events, category, k) && counts[k] > 0
  {
    forall k | k in counts
      ensures counts[k] == ViewsOf(events, category, k) && counts[k] > 0
    {
      SameCategoryIdsCountViews(events, category, k);
    }
  }

  /** Counts never increase along the sequence. */
  ghost predicate SortedDesc(s: seq<Entry>) {
    forall i, j | 0 <= i < j < |s| :: s[i].count >= s[j].count
  }

  /** `s` lists every entry of `counts` exactly once and nothing else. */
  ghost predicate EnumeratesEntries(s: seq<Entry>, counts: map<string, nat>) {
    forall x: Entry :: multiset(s)[x] == if x.productId in counts && counts[x.productId] == x.count then 1 else 0
  }

  /** Inserts `e` in front of the first entry with a smaller count. */
  function InsertDesc(sorted: seq<Entry>, e: Entry): (r: seq<Entry>)
    ensures multiset(r) == multiset(sorted) + multiset{e}
    ensures forall x | x in r :: x in sorted || x == e
  {
    if |sorted| == 0 then [e]
    else if sorted[0].count < e.count then [e] + sorted
    else
      var rest := InsertDesc(sorted[1..], e);
      assert sorted == [sorted[0]] + sorted[1..];
      [sorted[0]] + rest
  }

  /** A bound on every count of the ranking and of the new entry bounds every count after insertion. */
  lemma {:induction false} InsertDescBounded(sorted: seq<Entry>, e: Entry, bound: nat)
    requires forall i | 0 <= i < |sorted| :: sorted[i].count <= bound
    requires e.count <= bound
    ensures forall i | 0 <= i < |InsertDesc(sorted, e)| :: InsertDesc(sorted, e)[i].count <= bound
  {
    if |sorted| > 0 && sorted[0].count >= e.count {
      InsertDescBounded(sorted[1..], e, bound);
    }
  }

  /** Insertion keeps a ranking sorted by count, descending. */
  lemma {:induction false} InsertDescSorted(sorted: seq<Entry>, e: Entry)
    requires SortedDesc(sorted)
    ensures SortedDesc(InsertDesc(sorted, e))
  {
    if |sorted| > 0 && sorted[0].count >= e.count {
      var rest := InsertDesc(sorted[1..], e);
      InsertDescSorted(sorted[1..], e);
      InsertDescBounded(sorted[1..], e, sorted[0].count);
      var r := [sorted[0]] + rest;
      forall i, j | 0 <= i < j < |r|
        ensures r[i].count >= r[j].count
      {
        assert r[j] == rest[j - 1];
        if i > 0 {
          assert r[i] == rest[i - 1];
        }
      }
    }
  }

  /**
   * `sort.Slice` over the count-map entries, by count descending. Go visits the map in
   * random order and the sort is unstable, so the order of equal counts is unspecified:
   * the keys are taken here in an arbitrary order, and the contract is all that is promised.
   */
  method SortByCountDesc(counts: map<string, nat>) returns (sorted: seq<Entry>)
    ensures SortedDesc(sorted)
    ensures EnumeratesEntries(sorted, counts)
  {
    sorted := [];
    var remaining := counts.Keys;
    while remaining != {}
      invariant remaining <= counts.Keys
      invariant SortedDesc(sorted)
      invariant forall x: Entry ::
        multiset(sorted)[x] == if x.productId in counts.Keys - remaining && counts[x.productId] == x.count then 1 else 0
      decreases remaining
    {
      var k :| k in remaining;
      InsertDescSorted(sorted, Entry(k, counts[k]));
      sorted := InsertDesc(sorted, Entry(k, counts[k]));
      remaining := remaining - {k};
    }
  }

  /** What an enumeration of the count map says about each of its positions. */
  lemma EnumeratedEntries(s: seq<Entry>, counts: map<string, nat>)
    requires EnumeratesEntries(s, counts)
    ensures forall i | 0 <= i < |s| :: s[i].productId in counts && s[i].count == counts[s[i].productId]
    ensures forall k | k in counts :: Entry(k, counts[k]) in s
    ensures forall i, j | 0 <= i < j < |s| :: s[i].productId != s[j].productId
  {
    forall i | 0 <= i < |s|
      ensures s[i].productId in counts && s[i].count == counts[s[i].productId]
    {
      assert multiset(s)[s[i]] > 0;
    }
    forall k | k in counts
      ensures Entry(k, counts[k]) in s
    {
      assert multiset(s)[Entry(k, counts[k])] == 1;
    }
    forall i, j | 0 <= i < j < |s|
      ensures s[i].productId != s[j].productId
    {
      assert s == s[..j] + s[j..];
      assert s[i] in s[..j] && s[j] in s[j..];
    }
  }

  /** The ranking with every entry for the viewed product's own id removed. */
  function WithoutSelf(ranking: seq<Entry>, selfId: string): seq<Entry>
  {
    if |ranking| == 0 then []
    else
      var last := ranking[|ranking| - 1];
      WithoutSelf(ranking[..|ranking| - 1], selfId) + (if last.productId != selfId then [last] else [])
  }

  /** `WithoutSelf` keeps exactly the entries for other ids. */
  lemma {:induction false} WithoutSelfMembers(ranking: seq<Entry>, selfId: string)
    ensures forall x | x in WithoutSelf(ranking, selfId) :: x in ranking && x.productId != selfId
    ensures forall x | x in ranking && x.productId != selfId :: x in WithoutSelf(ranking, selfId)
  {
    if |ranking| > 0 {
      var n := |ranking| - 1;
      WithoutSelfMembers(ranking[..n], selfId);
      assert ranking == ranking[..n] + [ranking[n]];
    }
  }

  ghost predicate IsPrefix(a: seq<Entry>, b: seq<Entry>) {
    |a| <= |b| && b[..|a|] == a
  }

  /** The selection of a prefix of the ranking is a prefix of the selection of the whole. */
  lemma {:induction false} WithoutSelfPrefix(ranking: seq<Entry>, i: nat, selfId: string)
    requires i <= |ranking|
    ensures IsPrefix(WithoutSelf(ranking[..i], selfId), WithoutSelf(ranking, selfId))
    decreases |ranking| - i
  {
    if i < |ranking| {
      WithoutSelfPrefix(ranking, i + 1, selfId);
      assert ranking[..i + 1][..i] == ranking[..i];
      var a := WithoutSelf(ranking[..i], selfId);
      var b := WithoutSelf(ranking[..i + 1], selfId);
      assert IsPrefix(a, b);
    } else {
      assert ranking[..i] == ranking;
    }
  }

  /** Dropping entries keeps a sorted ranking sorted. */
  lemma {:induction false} WithoutSelfSorted(ranking: seq<Entry>, selfId: string)
    requires SortedDesc(ranking)
    ensures SortedDesc(WithoutSelf(ranking, selfId))
  {
    if |ranking| > 0 {
      var n := |ranking| - 1;
      var init := ranking[..n];
      assert SortedDesc(init);
      WithoutSelfSorted(init, selfId);
      WithoutSelfMembers(init, selfId);
      var r := WithoutSelf(init, selfId);
      forall x | x in r
        ensures x.count >= ranking[n].count
      {
        var m :| 0 <= m < n && init[m] == x;
      }
    }
  }

  /** The product ids of a list of entries. */
  function IdsOf(entries: seq<Entry>): (ids: seq<string>)
    ensures |ids| == |entries|
    ensures forall i | 0 <= i < |ids| :: ids[i] == entries[i].productId
  {
    seq(|entries|, i requires 0 <= i < |entries| => entries[i].productId)
  }

  /** The entries recommended from a ranking: the first five that are not the viewed product. */
  function Chosen(ranking: seq<Entry>, selfId: string): seq<Entry> {
    var others := WithoutSelf(ranking, selfId);
    if |others| <= RelatedLimit then others else others[..RelatedLimit]
  }

  /** What is recommended: at most five entries of the ranking, never the product itself. */
  lemma ChosenMembers(ranking: seq<Entry>, selfId: string)
    ensures |Chosen(ranking, selfId)| <= RelatedLimit
    ensures forall x | x in Chosen(ranking, selfId) :: x in ranking && x.productId != selfId
  {
    WithoutSelfMembers(ranking, selfId);
    var others := WithoutSelf(ranking, selfId);
    if |others| > RelatedLimit {
      forall x | x in others[..RelatedLimit]
        ensures x in others
      {
        var m :| 0 <= m < RelatedLimit && others[..RelatedLimit][m] == x;
      }
    }
  }

  /** From a sorted ranking the recommendations come best first. */
  lemma ChosenSorted(ranking: seq<Entry>, selfId: string)
    requires SortedDesc(ranking)
    ensures SortedDesc(Chosen(ranking, selfId))
  {
    WithoutSelfSorted(ranking, selfId);
  }

  /** The selection loop stops after the whole ranking or at five ids; either way it has chosen `Chosen`. */
  lemma SelectionStops(ranking: seq<Entry>, i: nat, selfId: string)
    requires i <= |ranking|
    requires |WithoutSelf(ranking[..i], selfId)| <= RelatedLimit
    requires i == |ranking| || |WithoutSelf(ranking[..i], selfId)| == RelatedLimit
    ensures WithoutSelf(ranking[..i], selfId) == Chosen(ranking, selfId)
  {
    WithoutSelfPrefix(ranking, i, selfId);
    if i == |ranking| {
      assert ranking[..i] == ranking;
    }
  }

  /** The selection loop of `GetRelatedProducts`, stopping at five ids. */
  method SelectRelatedIds(ranking: seq<Entry>, selfId: string) returns (ids: seq<string>)
    ensures ids == IdsOf(Chosen(ranking, selfId))
    ensures |ids| <= RelatedLimit
    ensures selfId !in ids
  {
    ids := [];
    var i := 0;
    while i < |ranking| && |ids| < RelatedLimit
      invariant 0 <= i <= |ranking|
      invariant ids == IdsOf(WithoutSelf(ranking[..i], selfId))
      invariant |ids| <= RelatedLimit
    {
      assert ranking[..i + 1][..i] == ranking[..i];
      if ranking[i].productId != selfId {
        ids := ids + [ranking[i].productId];
      }
      i := i + 1;
    }
    SelectionStops(ranking, i, selfId);
    ChosenMembers(ranking, selfId);
    var chosen := Chosen(ranking, selfId);
    forall m | 0 <= m < |ids| ensures ids[m] != selfId {
      assert chosen[m] in chosen;
    }
  }

  /**
   * `GetRelatedProducts`. The ghost outputs name the count map and the ranking the run
   * built; any ranking with this contract is one Go may produce.
   */
  method GetRelatedProducts(s: Store, product: Product)
    returns (r: Result<seq<Product>>, ghost counts: map<string, nat>, ghost ranking: seq<Entry>)
    ensures r.Err? <==> GetProductsByCategory(s.products, product.category) == []
    ensures r.Err? ==> r.error == NoRelatedProducts
    ensures r.Ok? ==> IsBehaviorCount(counts, s.tracking, product.category)
    ensures r.Ok? ==> SortedDesc(ranking) && EnumeratesEntries(ranking, counts)
    ensures r.Ok? ==> r.value == GetProductsByIDs1(s.products, IdsOf(Chosen(ranking, Itoa(product.id))))
    ensures r.Ok? ==> forall p | p in r.value :: p in s.products && p.id != product.id
    ensures r.Ok? && ValidProducts(s.products, s.nextProductId) ==> |r.value| <= RelatedLimit
  {
    var related := GetProductsByCategory(s.products, product.category);
    if |related| == 0 {
      r, counts, ranking := Err(NoRelatedProducts), map[], [];
      return;
    }
    var behaviorCounts := CountBehaviors(s.tracking, product.category);
    var sorted := SortByCountDesc(behaviorCounts);
    counts, ranking := behaviorCounts, sorted;
    var selfId := Itoa(product.id);
    var ids := SelectRelatedIds(sorted, selfId);
    var found := GetProductsByIDs1(s.products, ids);
    r := Ok(found);
    if ValidProducts(s.products, s.nextProductId) {
      ProductKeysDistinct(s.products, s.nextProductId);
      FilterKeepsDistinctKeys(s.products, (p: Product) => ProductKey(p) in ids, ProductKey);
      DistinctKeysBound(found, ProductKey, set k | k in ids);
      ElementsBound(ids);
    }
  }

  /**
   * `GetProductDetails`: the product a route id addresses, with its recommendations. The ghost
   * outputs are the count map and ranking of the `GetRelatedProducts` run it makes.
   */
  method GetProductDetails(s: Store, key: string)
    returns (r: Result<(Product, seq<Product>)>, ghost counts: map<string, nat>, ghost ranking: seq<Entry>)
    ensures r == Err(InvalidProductId) <==> LookupProduct(s.products, key).Err?
    ensures r == Err(RelatedProductsFailed) <==>
      LookupProduct(s.products, key).Ok?
      && GetProductsByCategory(s.products, LookupProduct(s.products, key).value.category) == []
    ensures r != Err(RelatedProductsFailed)
    ensures r.Ok? <==> LookupProduct(s.products, key).Ok?
    ensures r.Ok? ==> r.value.0 == LookupProduct(s.products, key).value
    ensures r.Ok? ==> IsBehaviorCount(counts, s.tracking, r.value.0.category)
    ensures r.Ok? ==> SortedDesc(ranking) && EnumeratesEntries(ranking, counts)
    ensures r.Ok? ==> r.value.1 == GetProductsByIDs1(s.products, IdsOf(Chosen(ranking, Itoa(r.value.0.id))))
    ensures r.Ok? ==> forall p | p in r.value.1 :: p in s.products && p.id != r.value.0.id
    ensures r.Ok? && ValidProducts(s.products, s.nextProductId) ==> |r.value.1| <= RelatedLimit
  {
    var lookup := LookupProduct(s.products, key);
    if lookup.Err? {
      r, counts, ranking := Err(InvalidProductId), map[], [];
      return;
    }
    OwnCategoryIsNonEmpty(s.products, lookup.value);
    var related;
    related, counts, ranking := GetRelatedProducts(s, lookup.value);
    if related.Err? {
      r := Err(RelatedProductsFailed);
      return;
    }
    r := Ok((lookup.value, related.value));
  }

  /** A stored product is in its own category, so the "no related products" error cannot follow a lookup. */
  lemma OwnCategoryIsNonEmpty(rows: seq<Product>, p: Product)
    requires p in rows
    ensures p in GetProductsByCategory(rows, p.category)
    ensures GetProductsByCategory(rows, p.category) != []
  {
  }
}
